=== FILE: README.md ===
# yuriX model core in Dafny

This project models the core of yuriX, a small reactive model-state library. The core has three cooperating pieces, each present in up to three copies in the repository: the root ES modules, `src/`, and the compiled `lib/`.

* **State store** (`_createState`). It holds one snapshot, which starts as `{}`. `getState` is the field `Store.state`. `setState` has several modes:
  * **Replace:** a single non-function argument is shallow-copied into the next snapshot.
  * **Mutate:** a function argument is run as an immer recipe on the current snapshot. Any further arguments are forwarded to the recipe after the draft.
  * **No arguments:** throws.
  * **Anything else** (a non-function followed by more arguments) does nothing.

  Every accepted call broadcasts `(prev, next)` through an rxjs `Subject` to the current subscribers. `subscribe` returns an unsubscribe function. The three store copies are identical, so one model covers them.
* **Pipeline executors.**
  * The cancellable effector (`createEffector`) provides `pipe`, `stopAllPipes` and `isStopError`. It owns a per-instance stop sentinel, and each run keeps its own stop flag.
  * The plain `pipe` has no cancellation.
  * The two differ in one parameter: the `Kind` (`Cancellable(sentinel)` or `Plain`). It decides two things: what zero emissions aggregate to (nothing vs. `[]`), and whether a stop exists.
  * Asynchronous stages are abstracted as an event trace (`Start`, `Emit`, `Fail`, `Complete`, `StopAll`), folded into per-run promise states.
  * Synchronous stages are modelled concretely: each is a function from one value to its emissions or an error. Values are pushed depth-first, as rxjs does.
* **Model composition** (`createModel`). It picks the context from the factory's declared arity, seeds the store with the factory's `state`, and returns the factory's entries overlaid with the store's surface.
  * The root `model.js` copy calls a function-valued `modelArgs` and throws on any arity other than 1 or 2.
  * The compiled hooks copy unwraps a zero-arity argument.
  * The source hooks copy does not unwrap.
  * Both hooks copies pass `{set, get, sync}` and add an effector for arity 2 only. They also expose `syncState`/`syncStop` over a closable broadcast channel.

Modules:

* `Results`: `Option` and `Result`.
* `Values`: JavaScript values, snapshots as maps, and object spread.
* `Subjects`: the rxjs `Subject` as a broadcast with a delivery log. Both the store's change stream and the sync channel use it.
* `StateStore`
* `Stages`: synchronous operator chains.
* `Pipelines`: the executors.
* `Composition`
* `EndToEnd`: the counter scenarios of the test files.

JavaScript functions are opaque `Fun(tag)` values. What a function does when immer runs it as a recipe is a parameter (`Recipes`). What `createModel` gets from calling a factory is the `call` field of `ModelFn`. What calling a thunk `modelArgs` returns is the `invoke` parameter. Error objects are identified by reference (a `nat`), so `isStopError` is an identity test.

Points worth noting about the code:

* Only the root `createModel` (model.js:84-94) rejects arities other than 1 and 2. The hooks copies call a factory of any arity, adding the effector only for arity 2.
* The plain `pipe` resolves zero emissions to `[]` (src/utils/pipe.js:27). The effector resolves them to `undefined` (lib/utils/effector.js:39-40).
* A recipe that writes nothing new yields a snapshot equal to the previous one. Snapshots are compared by value here, since immer's reference identity is not modelled.

## Model

| member | source | states |
|---|---|---|
| Subjects.Fresh | lib/state/state.js:17 | `new Subject()` is open, has no observers and has delivered nothing |
| Subjects.Subscribe | lib/state/state.js:59-64 | a subscription gets a new id and is appended after the existing ones; on a completed subject it is not registered; nothing is delivered on subscribing |
| Subjects.Unsubscribe | lib/state/state.js:65-68 | removes exactly that subscription and keeps all others, still listed in subscription order |
| Subjects.UnsubscribeKeepsOrder | lib/state/state.js:65-68 | of two subscriptions that survive an unsubscribe, the one listed first before is listed first after, so `next` still reaches them in subscription order |
| Subjects.UnsubscribeIdempotent | src/state.js:64-65 | calling the unsubscribe function twice has the same effect as calling it once |
| Subjects.Next | lib/state/state.js:34 | `next(v)` appends one delivery of `v` per live observer, in subscription order; a completed subject ignores it |
| Subjects.NextCount | lib/state/state.js:54 | `next` reaches each live observer exactly once and no other id |
| Subjects.NoReplay | lib/hooks/index.js:50 | on any consistent subject, a new subscription has received nothing, whatever was broadcast before it |
| Subjects.Complete | lib/hooks/index.js:70-72 | `complete()` closes the subject for good and drops every observer |
| StateStore.NewStore | lib/state/state.js:15-17 | a fresh store's snapshot is `{}` and it has no subscribers |
| StateStore.SetState | lib/state/state.js:20-56 | no arguments throws; replace mode publishes the spread of the argument; mutate mode publishes the recipe's writes applied to the current snapshot, with extras forwarded; a recipe's exception propagates; a non-function with extras returns the store unchanged; accepted calls broadcast `(prev, next)`; subscribers are never altered |
| StateStore.LastWriteWins | lib/state/state.js:46-49 | in the committed snapshot, every key holds the value of its last write, is gone if that write was a delete, and keeps its old value if untouched |
| StateStore.IdleWritesKeepSnapshot | lib/state/state.js:46-48 | a recipe that only writes values equal to the current ones commits a snapshot equal to the previous one |
| StateStore.NotifiesEachSubscriberOnce | lib/state/state.js:51-54 | an accepted call adds exactly one delivery per current subscriber and none for others; each delivery carries the pre-call snapshot as `prev` and the new one as `next` |
| StateStore.Subscribe | src/state.js:60-66 | subscribing keeps the snapshot and the log, and appends a new id not already subscribed |
| StateStore.Unsubscribe | src/state.js:64-65 | unsubscribing removes only that subscriber and keeps the snapshot |
| StateStore.SubscriberCountsAcceptedCalls | lib/state/state.js:34-54 | over any sequence of calls, a subscriber's notification count grows by exactly the number of accepted calls, replace-mode (:34) and mutate-mode (:54) alike |
| StateStore.AbsentHearsNothing | model.js:61-66 | over any sequence of calls, an unsubscribed id's count never grows |
| StateStore.UnsubscribeIsolated | src/state.js:60-65 | after one unsubscribe, that callback's count stops while any other subscriber still gets one notification per accepted call |
| Stages.Push | src/utils/pipe.js:14 | pushing a value into a chain invokes its first stage first and only stages of that chain; past the last stage the value is emitted as is |
| Stages.PushAll | src/utils/pipe.js:14 | pushing several values starts with the first one at the first stage; with no stages left they are emitted unchanged and in order |
| Stages.RunStages | src/utils/pipe.js:14 | `of(undefined).pipe(...)` seeds the chain with `undefined`: stage 0 runs first and only stages of the chain run; if stage 0 throws on `undefined` the run stops with that error at once; with no stages the seed itself is emitted |
| Stages.TapsRunOnceInOrder | lib/utils/effector.js:23 | a pipeline of taps on the single seed runs stage 0, 1, …, n-1 once each, in order, and emits the seed once |
| Stages.PipeOfTaps | src/utils/pipe.js:14 | a chain of taps receives `undefined`, runs every stage once in order and emits `undefined` once |
| Stages.DepthFirstMatchesLayers | src/utils/pipe.js:14-22 | when no stage throws, the depth-first run emits exactly what a layer-by-layer reference computes, in the same order, with no error |
| Stages.ErrorComesFromAStage | src/utils/pipe.js:23-25 | the error a run stops with was raised by some stage on some value; it is not replaced or wrapped |
| Stages.StageErrorReported | src/utils/pipe.js:23-25 | conversely, a stage that throws on a value reaching it (the stages before it never throw) makes the run report an error: no throw is swallowed |
| Stages.PushStageErrorReported | src/utils/pipe.js:23-25 | the same for a single value pushed into the chain |
| Pipelines.CreateEffector | lib/utils/effector.js:9-11 | a new effector owns the given sentinel and has no runs |
| Pipelines.Aggregate | lib/utils/effector.js:39-45 | the result carries exactly the emissions, in order; it is a single value iff there was one emission; it is "no value" iff the executor is the effector and nothing was emitted (the plain pipe gives `[]`, src/utils/pipe.js:27) |
| Pipelines.IsStopError | lib/utils/effector.js:53-55 | `isStopError(err)` holds exactly for the rejection reason a stop gives this effector's runs |
| Pipelines.Initial | lib/utils/effector.js:13-19 | `pipe()` with no stages is rejected at once with the no-stage error; with stages the promise starts pending with nothing collected |
| Pipelines.Step | lib/utils/effector.js:17-48 | one event: a new `pipe` call adds its run's initial promise; no run disappears; a settled promise never changes; a pending run moves only on an event that emits to it or ends it |
| Pipelines.StopAllPipes | lib/utils/effector.js:50-52 | every in-flight run rejects with the instance sentinel; settled runs keep their outcome; no run is added or removed |
| Pipelines.Run | lib/utils/effector.js:13-55 | over any trace, runs are never dropped and a settled promise keeps its outcome |
| Pipelines.RunFromState | lib/utils/effector.js:17-48 | an existing run evolves as the per-run reference says: the first event that ends it decides, with what was emitted before it, whatever is interleaved |
| Pipelines.RunMatchesView | utils/index.js:14-45 | folding any trace gives every run exactly the state the reference computes from the events after its own start, and only started runs exist |
| Pipelines.SettledIsFinal | lib/utils/effector.js:29-33 | once a run has settled, no later event, including a stop, changes its outcome |
| Pipelines.EarlierEventsIgnored | lib/utils/effector.js:19-22 | events before a run's start do not affect its reference state |
| Pipelines.LaterRunNotPoisoned | utils/index.js:16-19 | a run started after a `stopAllPipes()` ends exactly as if that stop had not happened |
| Pipelines.CompletedRunResolves | utils/index.js:25-43 | a run that emits `vs` and completes resolves to the aggregate of `vs`, whose carried values are exactly `vs` |
| Pipelines.FailedRunRejects | utils/index.js:28-31 | a run whose chain errors rejects with that same error reference, whatever was emitted before |
| Pipelines.StoppedRunRejects | utils/index.js:33-38 | a stop during a run rejects it with the instance sentinel, for which `isStopError` holds, discarding its emissions |
| Pipelines.NoStagesRejects | lib/utils/effector.js:14-16 | `pipe()` with zero stages rejects at once with an error that is not a stop error, and stays rejected |
| Pipelines.PlainIgnoresStop | src/utils/pipe.js:10-31 | the plain `pipe` has no stop broadcast: a stop event changes nothing |
| Pipelines.StopErrorIsPerInstance | lib/utils/effector.js:53-55 | a run stopped on one effector is a stop error for it and not for an effector with another sentinel; a thrown error is a stop error iff it is that sentinel object |
| Pipelines.SyncRunSettles | src/utils/pipe.js:11-29 | with synchronous stages the run settles before `pipe` returns and later events cannot change it; it is rejected if there are no stages; with no throwing stage it resolves to the aggregate of the layer-by-layer emissions of `undefined`; a rejection carries an error some stage threw |
| Pipelines.SyncOutcomeMeaning | src/utils/pipe.js:14-29 | the synchronous outcome resolves to the aggregate of the layer-by-layer emissions when no stage throws, and otherwise rejects only with an error some stage threw |
| Pipelines.SyncStageThrowRejects | lib/utils/effector.js:28-31 | a stage throwing on a value that reaches it rejects the synchronous run with a thrown error |
| Composition.Surface | model.js:97-103 | the surface has the factory's keys plus the reserved ones; reserved keys hold the composer's members and every other key keeps the factory's entry |
| Composition.Compose | lib/hooks/index.js:60-66 | a throwing factory's error propagates; a nullish result throws; a non-function `state` is spread into the fresh store, while a function `state` runs as a mutate recipe on `{}` and its throw is a construction error; a function result seeds `{}`; the store has no subscribers; surface, effector and sync channel are as requested |
| Composition.Seed | src/hooks/index.js:53-60 | `setState(model.state)` on a fresh store gives the spread of a non-function `state`; a function `state` runs as a mutate recipe on `{}`, its writes make the snapshot and its throw aborts construction; the surface wraps the entries |
| Composition.CreateRootModel | model.js:77-103 | a function `modelArgs` is called first; an exception from `model(_modelArgs)` propagates; a result that is not a function throws; arity other than 1 or 2 throws; the factory is called with `{set, get}` plus a fresh effector iff arity 2, its exception propagates, a nullish result throws, and its entries make the surface; a built model has an effector iff arity 2 (a fresh one with the given sentinel) and no sync channel |
| Composition.RootThunkTransparent | model.js:78-79 | a thunk `modelArgs` gives the same result as passing the value it returns |
| Composition.RootArityCheckedFirst | model.js:84-94 | with an unsupported arity the result is the same error whatever the factory's body does, so no use case runs |
| Composition.RootFactoryContext | model.js:88-91 | arity 1 and 2 factories are called with their context; the model starts from the factory's `state` and exposes the surface with `getState` |
| Composition.Invoke | src/hooks/index.js:44-53 | the factory is called with `{set, get, sync}` plus a fresh effector iff its arity is 2, and what it returns for that argument list decides the model: its throw propagates, a nullish result throws, its entries make the surface; no arity is rejected; the model has a fresh sync channel |
| Composition.Unwrap | lib/hooks/index.js:46-47 | a function of non-zero arity is kept; a zero-arity function is called with no arguments: a returned function becomes the factory, its throw propagates |
| Composition.CreateHooksModel | lib/hooks/index.js:39-61 | a non-function argument throws; no arity error exists; a factory of arity other than 0 (any arity in the source copy) is called with the context plus the effector iff arity 2, and its result for that argument list decides the model; a built model has a fresh sync channel |
| Composition.LibUnwrapsThunk | lib/hooks/index.js:46-47 | the compiled copy builds, from a zero-arity function, the model the source copy builds from what that function returns |
| Composition.SrcCallsThunkAsFactory | src/hooks/index.js:44-54 | the source copy calls a zero-arity function with the context, and a returned function becomes a model with state `{}`, the reserved surface only, and no effector |
| Composition.HooksCopiesAgree | src/hooks/index.js:31-66 | for every argument that is not a zero-arity function, the two hooks copies build the same model |
| Composition.HooksSeedAndSurface | lib/hooks/index.js:51-66 | a factory that returns its entries only for the argument list its arity calls for (`{set, get, sync}`, plus the effector iff arity 2) builds a model whose snapshot is the initial state, whose unreserved entries are kept, whose `state` is the store, and which has an effector iff arity 2 |
| Composition.SyncStateOf | lib/hooks/index.js:67-69 | `syncState(s)` appends one delivery of `s` per sync subscriber present now, in subscription order, and reaches nobody else; the channel stays open with its subscribers and id counter; after `syncStop` it changes nothing |
| Composition.SyncStopOf | lib/hooks/index.js:70-72 | `syncStop()` closes the channel and drops all its subscribers, keeping what was delivered |
| Composition.SyncSubscribe | src/hooks/index.js:42-47 | model logic subscribing to `sync` gets a new id appended after the existing subscribers, which all stay, while the channel is open; nothing is registered after it closed |
| Composition.StoppedSyncDeliversNothing | src/hooks/index.js:62-63 | after `syncStop()`, no sequence of `syncState` calls delivers anything |
| EndToEnd.CounterIncrements | __tests__/model.test.js:87-96 | the arity-1 counter built by the root `createModel` starts from `{value: 0, step: 1}` (so `getState().step` is 1), and running its `inc` recipe once makes `value` 1 |
| EndToEnd.ExtrasForwarded | lib/state/__tests__/state.test.js:24-37 | `setState(inc, 1)` forwards `1` to the recipe after the draft, giving `{value: 1}`; and a subscriber receives `({}, {value: 0})` for the first mutation, which is the test at lib/state/__tests__/state.test.js:50-67 |
| EndToEnd.SettledRunTouchesNothing | lib/utils/effector.js:23-33 | granted that rxjs unsubscribes a chain once it errored, completed or was cut by `takeUntil` (built into `Happen`), a settled run's later `set` calls change neither the store nor its outcome |
| EndToEnd.StopBeforeDelayedIncrement | src/hooks/__tests__/hooks.test.js:31-55 | a stop before a delayed increment fires leaves the store as it was, and the use case rejects with a stop error |
| EndToEnd.DelayedCounterStopped | src/hooks/index.js:49-51 | the arity-2 counter built by either hooks copy keeps `{value: 0, step: 1}` when stopped before its delayed increment, and rejects with `isStopError` true |

## Left out

- The React binding `useModel` (`useMemo`, `useSyncExternalStore`, `useEffect`) is UI plumbing. The host's calls to `syncState` and `syncStop` are the model's inputs.
- The same goes for `hooks/index.js` and the re-export shims `lib/index.js` and `lib/utils/index.js`.
- rxjs operator semantics and timers (`delay`, `concatMap`, `takeUntil` scheduling) are not modelled. Asynchronous runs are event traces.
- Stages models only per-value operators. Stateful operators such as `take` or `scan` are not a function of one value.
- Argument validation that only rxjs performs (`pipe(1)`, `pipe([])`, `pipe(() => {})`) is not modelled.
- immer's proxies, freezing and reference identity are not modelled. Snapshots are compared by value.
- immer's rule that a recipe's non-`undefined` return value replaces the state is not modelled. A recipe here only performs writes or throws.
- Values.Spread: spreading a string argument gives index keys in JavaScript. The model gives `{}`, as for the other primitives.
- Values.Spread: there are no array values, so `setState([a, b])`, which JavaScript spreads into index keys `"0"`, `"1"`, cannot be expressed.
- Stages.Push: a stage's reaction to one value either emits values or throws. An operator that emits some values and then errors for the same input (`concatMap(() => concat(of(1), throwError(e)))`) is not expressible. The run's outcome would be the same, but in JavaScript the later stages also run on the values emitted before the error, and `calls` does not record that.
- JavaScript numbers are modelled as unbounded integers. Floating point and `NaN` (for example `undefined + 1`) are not modelled.
- `subscribe(undefined)` registers a subscription whose wrapper calls nothing. The model counts deliveries per subscription, not callback invocations.
- Re-entrant `setState` from inside a subscriber callback is not modelled.
- A sync waiter still pending when `syncStop` closes the channel is not modelled, because the source does not define what happens to it.
- Composition.Compose: factories are pure here. A factory returns (or throws) as a function of its argument list alone. In JavaScript it runs with the live `set`, `get`, `sync` and effector before the seeding `setState`, so it could already set state, subscribe to `sync` or start a `pipe`. The fresh sync channel, the effector with no runs and the function-valued `state` run on `{}` all hold only under this assumption.
- Composition.CreateRootModel: `model` is always a function here. A non-function `model` throws a TypeError in JavaScript.
- Composition.CreateRootModel: a thunk `modelArgs` that throws is not modelled.
- Composition.CreateRootModel: a non-function factory is reported as `NotCallable`. In JavaScript it throws either the arity error or a TypeError, depending on its `length`. Both throw before any use case runs.
- Composition.Compose: a factory returning a primitive other than `null`/`undefined` is not distinguished from an object without entries. Both have no `state` and no own entries.
- `src/utils/effector.js`, imported by `src/hooks/index.js`, is not part of this model. Its effector is taken to be the one in `lib/utils/effector.js` and `utils/index.js`.
- The example and login business models in the test files are consumers of the core. Only the counter scenarios are restated, in EndToEnd.

=== FILE: composition.dfy ===
/** Model composition `createModel`, in its three copies: the root module's
    `createModel(model, modelArgs)` and the hooks' `createModel(fn)` of the
    compiled and the source tree.  It chooses the context from the factory's
    declared arity, seeds a fresh store with the factory's `state`, and
    returns the factory's entries together with the store's surface. */
module Composition {
  import opened Values
  import opened Results
  import Subjects
  import StateStore
  import Pipelines

  /** The context object a factory receives: `{set, get}` in the root
      module, `{set, get, sync}` in the hooks. */
  datatype Context = Context(hasSync: bool)

  /** The argument lists `createModel` calls functions with: none (to unwrap
      a zero-arity function), the context, or the context and an effector
      (identified by its sentinel). */
  datatype CallArgs = NoArgs | WithContext(ctx: Context) | WithEffector(ctx: Context, sentinel: nat)

  /** What a call returns: an object with its own enumerable entries (use
      cases are `Fun` values), a function, `null`/`undefined`, or it throws. */
  datatype Returned =
    | ReturnsObject(entries: map<string, Value>)
    | ReturnsFunction(arity: nat, call: CallArgs -> Returned)
    | ReturnsNullish
    | Throws(error: nat)

  /** A value given where a model-creating function is expected: not a
      function, or a function with its declared parameter count (`length`)
      and what it returns for each argument list (a returned function is
      described the same way by `ReturnsFunction`). */
  datatype ModelFn = NotAFunction | Fn(arity: nat, call: CallArgs -> Returned)

  /** What the returned model exposes under each key. */
  datatype Member =
    | Entry(value: Value)
    | StoreObject
    | GetState
    | Subscribe
    | SyncState
    | SyncStop

  /** A constructed model: its store, its surface, the effector created for
      it (arity 2 only) and, in the hooks, its sync channel. */
  datatype Instance = Instance(
    store: StateStore.Store,
    surface: map<string, Member>,
    effector: Option<Pipelines.Executor>,
    sync: Option<Subjects.Subject<Snapshot>>)

  /** Why construction throws. */
  datatype CreateError =
    | ArgumentNotAFunction      // the hooks' explicit check
    | NotCallable               // a non-function is used as a function (TypeError)
    | UnsupportedArity(arity: nat)
    | FactoryThrew(error: nat)
    | NullishModel              // reading `.state` of `null`/`undefined` (TypeError)
    | SeedThrew(error: nat)     // a function-valued `state` run as a recipe threw

  /** Which hooks copy: the compiled one unwraps zero-arity functions. */
  datatype HooksCopy = Lib | Src

  /** The keys the composer sets after spreading the factory's entries. */
  function Reserved(withSync: bool): (r: map<string, Member>) {
    var base := map["state" := StoreObject, "getState" := GetState, "subscribe" := Subscribe];
    if withSync then base["syncState" := SyncState]["syncStop" := SyncStop] else base
  }

  /** `{...model, state: store, getState, subscribe[, syncState, syncStop]}`:
      every entry of the factory's object is kept unless the composer sets
      that key, in which case the composer's member wins. */
  function Surface(entries: map<string, Value>, withSync: bool): (r: map<string, Member>)
    ensures forall k :: k in r <==> k in entries || k in Reserved(withSync)
    ensures forall k :: k in Reserved(withSync) ==> r[k] == Reserved(withSync)[k]
    ensures forall k :: k in entries && k !in Reserved(withSync) ==> r[k] == Entry(entries[k])
  {
    (map k | k in entries :: Entry(entries[k])) + Reserved(withSync)
  }

  /** `model.state`, `undefined` when absent. */
  function InitialState(entries: map<string, Value>): (r: Value) {
    if "state" in entries then entries["state"] else Undefined
  }

  /** Seeds the store with `setState(model.state)` and builds the surface.
      A returned function has no `state` and no own entries.  A
      function-valued `state` is a mutate-mode call: it runs as a recipe on
      the fresh store's `{}`, and its throw aborts construction. */
  function Compose(recipes: StateStore.Recipes, ret: Returned, withSync: bool, effector: Option<Pipelines.Executor>): (r: Result<Instance, CreateError>)
    ensures ret.Throws? ==> r == Err(FactoryThrew(ret.error))
    ensures ret.ReturnsNullish? ==> r == Err(NullishModel)
    ensures ret.ReturnsObject? && !InitialState(ret.entries).Fun? ==>
              r.Ok? && r.value.store.state == Spread(InitialState(ret.entries))
    ensures ret.ReturnsFunction? ==> r.Ok? && r.value.store.state == map[]
    ensures ret.ReturnsObject? && InitialState(ret.entries).Fun? ==>
      var run := recipes(InitialState(ret.entries).tag, map[], []);
      && (run.Throws? ==> r == Err(SeedThrew(run.error)))
      && (run.Writes? ==> r.Ok? && r.value.store.state == StateStore.ApplyWrites(map[], run.writes))
    ensures r.Ok? ==> StateStore.Valid(r.value.store) && r.value.store.changes.observers == []
    ensures r.Ok? && ret.ReturnsObject? ==> r.value.surface == Surface(ret.entries, withSync)
    ensures r.Ok? ==> r.value.effector == effector
    ensures r.Ok? ==> (r.value.sync.Some? <==> withSync)
    ensures r.Ok? && withSync ==> r.value.sync.value == Subjects.Fresh()
  {
    match ret
    case Throws(e) => Err(FactoryThrew(e))
    case ReturnsNullish => Err(NullishModel)
    case ReturnsFunction(_, _) => Seed(recipes, map[], withSync, effector)
    case ReturnsObject(entries) => Seed(recipes, entries, withSync, effector)
  }

  function Seed(recipes: StateStore.Recipes, entries: map<string, Value>, withSync: bool, effector: Option<Pipelines.Executor>): (r: Result<Instance, CreateError>)
    ensures !InitialState(entries).Fun? ==> r.Ok? && r.value.store.state == Spread(InitialState(entries))
    ensures InitialState(entries).Fun? ==>
      var run := recipes(InitialState(entries).tag, map[], []);
      && (run.Throws? ==> r == Err(SeedThrew(run.error)))
      && (run.Writes? ==> r.Ok? && r.value.store.state == StateStore.ApplyWrites(map[], run.writes))
    ensures r.Ok? ==> StateStore.Valid(r.value.store) && r.value.store.changes.observers == []
    ensures r.Ok? ==> r.value.surface == Surface(entries, withSync) && r.value.effector == effector
    ensures r.Ok? ==> (r.value.sync.Some? <==> withSync)
    ensures r.Ok? && withSync ==> r.value.sync.value == Subjects.Fresh()
  {
    assert [InitialState(entries)][1..] == [];
    match StateStore.SetState(recipes, StateStore.NewStore(), [InitialState(entries)])
    case Err(e) => Err(SeedThrew(e.error))
    case Ok(store) =>
      Ok(Instance(store, Surface(entries, withSync), effector, if withSync then Some(Subjects.Fresh()) else None))
  }

  // ---------------------------------------------------------------------
  // The root module's createModel(model, modelArgs)

  /** `createModel(model, modelArgs)`: a function `modelArgs` is called
      (`invoke` says what it returns) and its result passed to `model`
      (`model` says what that call returns, or what it throws); the factory
      `model` returns is called with `{set, get}` for arity 1, with that and
      a fresh effector for arity 2, and anything else throws before the
      factory runs.  `sentinel` is the fresh effector's stop error. */
  function CreateRootModel(recipes: StateStore.Recipes, invoke: nat -> Value, model: Value -> Returned,
                           modelArgs: Value, sentinel: nat): (r: Result<Instance, CreateError>)
    ensures var made := model(if modelArgs.Fun? then invoke(modelArgs.tag) else modelArgs);
      && (made.Throws? ==> r == Err(FactoryThrew(made.error)))
      && (!made.Throws? && !made.ReturnsFunction? ==> r == Err(NotCallable))
      && (made.ReturnsFunction? && made.arity != 1 && made.arity != 2 ==> r == Err(UnsupportedArity(made.arity)))
      && (made.ReturnsFunction? && (made.arity == 1 || made.arity == 2) ==>
            var ret := made.call(if made.arity == 2 then WithEffector(Context(false), sentinel) else WithContext(Context(false)));
            && (ret.Throws? ==> r == Err(FactoryThrew(ret.error)))
            && (ret.ReturnsNullish? ==> r == Err(NullishModel))
            && (ret.ReturnsObject? && r.Ok? ==> r.value.surface == Surface(ret.entries, false)))
      && (r.Ok? ==> made.ReturnsFunction? && (made.arity == 1 || made.arity == 2))
      && (r.Ok? ==> (r.value.effector.Some? <==> made.arity == 2))
      && (r.Ok? && made.arity == 2 ==> r.value.effector == Some(Pipelines.CreateEffector(sentinel)))
      && (r.Ok? ==> r.value.sync.None?)
  {
    var arg := if modelArgs.Fun? then invoke(modelArgs.tag) else modelArgs;
    match model(arg)
    case Throws(e) => Err(FactoryThrew(e))
    case ReturnsFunction(arity, call) =>
      if arity == 1 then Compose(recipes, call(WithContext(Context(false))), false, None)
      else if arity == 2 then
        Compose(recipes, call(WithEffector(Context(false), sentinel)), false, Some(Pipelines.CreateEffector(sentinel)))
      else Err(UnsupportedArity(arity))
    case _ => Err(NotCallable)
  }

  /** A thunk `modelArgs` behaves exactly like the value it returns. */
  lemma RootThunkTransparent(recipes: StateStore.Recipes, invoke: nat -> Value, model: Value -> Returned,
                             tag: nat, sentinel: nat)
    requires !invoke(tag).Fun?
    ensures CreateRootModel(recipes, invoke, model, Fun(tag), sentinel)
         == CreateRootModel(recipes, invoke, model, invoke(tag), sentinel)
  {
  }

  /** An arity other than 1 or 2 throws whatever the factory would do: its
      body is never consulted, so no use case runs. */
  lemma RootArityCheckedFirst(recipes: StateStore.Recipes, invoke: nat -> Value, arg: Value, arity: nat,
                              c1: CallArgs -> Returned, c2: CallArgs -> Returned, sentinel: nat)
    requires !arg.Fun? && arity != 1 && arity != 2
    ensures CreateRootModel(recipes, invoke, _ => ReturnsFunction(arity, c1), arg, sentinel)
         == CreateRootModel(recipes, invoke, _ => ReturnsFunction(arity, c2), arg, sentinel)
         == Err(UnsupportedArity(arity))
  {
  }

  /** The factory sees exactly the context its arity asks for, and the model
      starts from the factory's `state` with the surface built around it. */
  lemma RootFactoryContext(recipes: StateStore.Recipes, invoke: nat -> Value, arg: Value, arity: nat,
                           call: CallArgs -> Returned, entries: map<string, Value>, sentinel: nat)
    requires !arg.Fun? && (arity == 1 || arity == 2)
    requires !InitialState(entries).Fun?
    requires arity == 1 ==> call(WithContext(Context(false))) == ReturnsObject(entries)
    requires arity == 2 ==> call(WithEffector(Context(false), sentinel)) == ReturnsObject(entries)
    ensures var r := CreateRootModel(recipes, invoke, _ => ReturnsFunction(arity, call), arg, sentinel);
      && r.Ok?
      && r.value.store.state == Spread(InitialState(entries))
      && r.value.surface == Surface(entries, false)
      && "getState" in r.value.surface && r.value.surface["getState"] == GetState
      && (r.value.effector.Some? <==> arity == 2)
  {
  }

  // ---------------------------------------------------------------------
  // The hooks' createModel(fn)

  /** Calls the factory with `{set, get, sync}`, adding a fresh effector
      exactly when its arity is 2; no arity is rejected. */
  function Invoke(recipes: StateStore.Recipes, f: ModelFn, sentinel: nat): (r: Result<Instance, CreateError>)
    ensures f.NotAFunction? ==> r == Err(NotCallable)
    ensures f.Fn? ==>
      var ret := f.call(if f.arity == 2 then WithEffector(Context(true), sentinel) else WithContext(Context(true)));
      && (ret.Throws? ==> r == Err(FactoryThrew(ret.error)))
      && (ret.ReturnsNullish? ==> r == Err(NullishModel))
      && (ret.ReturnsObject? && r.Ok? ==> r.value.surface == Surface(ret.entries, true))
    ensures r.Err? ==> !r.error.UnsupportedArity?
    ensures r.Ok? ==> f.Fn? && (r.value.effector.Some? <==> f.arity == 2)
    ensures r.Ok? && f.arity == 2 ==> r.value.effector == Some(Pipelines.CreateEffector(sentinel))
    ensures r.Ok? ==> r.value.sync == Some(Subjects.Fresh())
  {
    match f
    case NotAFunction => Err(NotCallable)
    case Fn(arity, call) =>
      if arity == 2 then
        Compose(recipes, call(WithEffector(Context(true), sentinel)), true, Some(Pipelines.CreateEffector(sentinel)))
      else Compose(recipes, call(WithContext(Context(true))), true, None)
  }

  /** What the compiled copy uses as factory: a zero-arity function is
      called with no arguments and its result taken instead. */
  function Unwrap(fn: ModelFn): (r: Result<ModelFn, CreateError>)
    requires fn.Fn?
    ensures fn.arity != 0 ==> r == Ok(fn)
    ensures fn.arity == 0 && fn.call(NoArgs).ReturnsFunction? ==>
              r == Ok(Fn(fn.call(NoArgs).arity, fn.call(NoArgs).call))
    ensures fn.arity == 0 && fn.call(NoArgs).Throws? ==> r == Err(FactoryThrew(fn.call(NoArgs).error))
    ensures r.Ok? && r.value.Fn? && fn.arity == 0 ==> fn.call(NoArgs) == ReturnsFunction(r.value.arity, r.value.call)
  {
    if fn.arity != 0 then Ok(fn)
    else match fn.call(NoArgs)
      case ReturnsFunction(arity, call) => Ok(Fn(arity, call))
      case Throws(e) => Err(FactoryThrew(e))
      case _ => Ok(NotAFunction)
  }

  /** `createModel(createModelFunc)` of the hooks: a non-function argument
      throws; the compiled copy unwraps a zero-arity argument, the source
      copy does not; then the factory is invoked. */
  function CreateHooksModel(copy: HooksCopy, recipes: StateStore.Recipes, fn: ModelFn, sentinel: nat): (r: Result<Instance, CreateError>)
    ensures fn.NotAFunction? ==> r == Err(ArgumentNotAFunction)
    ensures r.Err? ==> !r.error.UnsupportedArity?
    ensures r.Ok? ==> r.value.sync == Some(Subjects.Fresh())
    ensures copy == Src && r.Ok? ==> (r.value.effector.Some? <==> fn.arity == 2)
    ensures fn.Fn? && (copy == Src || fn.arity != 0) ==>
      var ret := fn.call(if fn.arity == 2 then WithEffector(Context(true), sentinel) else WithContext(Context(true)));
      && (ret.Throws? ==> r == Err(FactoryThrew(ret.error)))
      && (ret.ReturnsNullish? ==> r == Err(NullishModel))
      && (ret.ReturnsObject? && r.Ok? ==> r.value.surface == Surface(ret.entries, true))
  {
    if fn.NotAFunction? then Err(ArgumentNotAFunction)
    else if copy == Lib then
      match Unwrap(fn)
      case Err(e) => Err(e)
      case Ok(g) => Invoke(recipes, g, sentinel)
    else Invoke(recipes, fn, sentinel)
  }

  /** The compiled copy treats a zero-arity function as a thunk: the model
      is the one the source copy builds from the function it returns. */
  lemma LibUnwrapsThunk(recipes: StateStore.Recipes, call: CallArgs -> Returned, arity: nat,
                         inner: CallArgs -> Returned, sentinel: nat)
    requires call(NoArgs) == ReturnsFunction(arity, inner)
    ensures CreateHooksModel(Lib, recipes, Fn(0, call), sentinel) == CreateHooksModel(Src, recipes, Fn(arity, inner), sentinel)
  {
  }

  /** Without unwrapping the source copy calls a zero-arity function with
      the context; the function it returns becomes an empty model. */
  lemma SrcCallsThunkAsFactory(recipes: StateStore.Recipes, call: CallArgs -> Returned, sentinel: nat)
    requires call(WithContext(Context(true))).ReturnsFunction?
    ensures var r := CreateHooksModel(Src, recipes, Fn(0, call), sentinel);
      r.Ok? && r.value.store.state == map[] && r.value.surface == Surface(map[], true) && r.value.effector.None?
  {
  }

  /** The two hooks copies agree on every function whose arity is not 0. */
  lemma HooksCopiesAgree(recipes: StateStore.Recipes, fn: ModelFn, sentinel: nat)
    requires fn.Fn? ==> fn.arity != 0
    ensures CreateHooksModel(Lib, recipes, fn, sentinel) == CreateHooksModel(Src, recipes, fn, sentinel)
  {
  }

  /** A factory is called with `{set, get, sync}` alone unless its arity is
      2, when the effector follows: whatever it returns for that argument
      list (and only that one) becomes the model.  After construction
      `getState()` is the factory's initial state, the surface carries the
      factory's entries next to the store and sync members, and arity 2
      alone gets an effector. */
  lemma HooksSeedAndSurface(copy: HooksCopy, recipes: StateStore.Recipes, arity: nat, call: CallArgs -> Returned,
                            entries: map<string, Value>, sentinel: nat)
    requires copy == Lib ==> arity != 0
    requires !InitialState(entries).Fun?
    requires arity != 2 ==> call(WithContext(Context(true))) == ReturnsObject(entries)
    requires arity == 2 ==> call(WithEffector(Context(true), sentinel)) == ReturnsObject(entries)
    ensures var r := CreateHooksModel(copy, recipes, Fn(arity, call), sentinel);
      && r.Ok?
      && r.value.store.state == Spread(InitialState(entries))
      && r.value.surface == Surface(entries, true)
      && (forall k :: k in entries && k !in Reserved(true) ==> k in r.value.surface && r.value.surface[k] == Entry(entries[k]))
      && r.value.surface["state"] == StoreObject
      && (r.value.effector.Some? <==> arity == 2)
  {
  }

  // ---------------------------------------------------------------------
  // The sync channel and the store surface of a constructed model

  /** `syncState(s)`: `s` reaches each sync subscriber present now, once;
      later subscribers never see it; after `syncStop()` nothing happens. */
  function SyncStateOf(m: Instance, s: Snapshot): (r: Instance)
    requires m.sync.Some? && Subjects.Valid(m.sync.value)
    ensures r.sync.Some? && Subjects.Valid(r.sync.value)
    ensures r.store == m.store && r.surface == m.surface && r.effector == m.effector
    ensures r.sync.value.observers == m.sync.value.observers
    ensures r.sync.value.closed == m.sync.value.closed && r.sync.value.nextId == m.sync.value.nextId
    ensures !m.sync.value.closed ==> r.sync.value.log == m.sync.value.log + Subjects.Deliveries(m.sync.value.observers, s)
    ensures forall id :: Subjects.Count(r.sync.value.log, id)
                      == Subjects.Count(m.sync.value.log, id) + (if id in m.sync.value.observers then 1 else 0)
    ensures m.sync.value.closed ==> r == m
  {
    Subjects.NextCountAll(m.sync.value, s);
    m.(sync := Some(Subjects.Next(m.sync.value, s)))
  }

  /** `syncStop()`: completes the channel for good. */
  function SyncStopOf(m: Instance): (r: Instance)
    requires m.sync.Some? && Subjects.Valid(m.sync.value)
    ensures r.sync.Some? && Subjects.Valid(r.sync.value)
    ensures r.sync.value.closed && r.sync.value.observers == []
    ensures r.sync.value.log == m.sync.value.log
    ensures r.store == m.store && r.surface == m.surface && r.effector == m.effector
  {
    m.(sync := Some(Subjects.Complete(m.sync.value)))
  }

  /** Model logic subscribing to `sync`. */
  function SyncSubscribe(m: Instance): (r: (Instance, nat))
    requires m.sync.Some? && Subjects.Valid(m.sync.value)
    ensures r.0.sync.Some? && Subjects.Valid(r.0.sync.value)
    ensures r.0.store == m.store && r.0.surface == m.surface && r.0.effector == m.effector
    ensures !m.sync.value.closed ==> r.0.sync.value.observers == m.sync.value.observers + [r.1]
    ensures r.1 !in m.sync.value.observers
    ensures m.sync.value.closed ==> r.0.sync.value.observers == []
    ensures r.0.sync.value.log == m.sync.value.log
  {
    var (ch, id) := Subjects.Subscribe(m.sync.value);
    (m.(sync := Some(ch)), id)
  }

  /** After `syncStop()` no sequence of `syncState` calls delivers anything
      more. */
  lemma {:induction false} StoppedSyncDeliversNothing(m: Instance, values: seq<Snapshot>)
    requires m.sync.Some? && Subjects.Valid(m.sync.value)
    ensures var stopped := SyncStopOf(m);
      SyncStates(stopped, values).sync.value.log == m.sync.value.log
    decreases |values|
  {
    if |values| > 0 {
      var stopped := SyncStopOf(m);
      var next := SyncStateOf(stopped, values[0]);
      assert next == stopped;
      assert SyncStates(stopped, values) == SyncStates(stopped, values[1..]);
      StoppedSyncDeliversNothing(m, values[1..]);
    }
  }

  /** The host feeding several snapshots in turn. */
  function SyncStates(m: Instance, values: seq<Snapshot>): (r: Instance)
    requires m.sync.Some? && Subjects.Valid(m.sync.value)
    ensures r.sync.Some? && Subjects.Valid(r.sync.value)
    decreases |values|
  {
    if |values| == 0 then m else SyncStates(SyncStateOf(m, values[0]), values[1..])
  }
}

=== FILE: end_to_end.dfy ===
/** End-to-end behaviour of a counter model `{value: 0, step: 1}` whose use
    case `inc` is `set(s => s.value += get().step)`, built by `createModel`
    and driven through the store and the effector. */
module EndToEnd {
  import opened Values
  import opened Results
  import Subjects
  import StateStore
  import Pipelines
  import Composition

  /** The tag of the function value `inc` passes to `set`. */
  const IncTag: nat := 1

  /** The counter's recipes: the increment adds `step` to `value`; other
      function values write nothing. */
  function CounterRecipes(tag: nat, s: Snapshot, extra: seq<Value>): (r: StateStore.RecipeRun) {
    if tag == IncTag && "value" in s && "step" in s && s["value"].Num? && s["step"].Num? then
      StateStore.Writes([StateStore.Assign("value", Num(s["value"].n + s["step"].n))])
    else StateStore.Writes([])
  }

  const CounterState: Value := Obj(map["value" := Num(0), "step" := Num(1)])

  const CounterEntries: map<string, Value> := map["state" := CounterState, "inc" := Fun(IncTag)]

  /** `({set, get}) => ({state: {value: 0, step: 1}, inc})` with the given
      declared arity. */
  function Counter(arity: nat): (r: Composition.ModelFn) {
    Composition.Fn(arity, CounterBody)
  }

  /** What the counter factory returns, whatever it is called with. */
  const CounterBody: Composition.CallArgs -> Composition.Returned := _ => Composition.ReturnsObject(CounterEntries)

  /** Starting from `{value: 0, step: 1}`, one `inc()` makes `value` 1. */
  lemma CounterIncrements(sentinel: nat)
    ensures var m := Composition.CreateRootModel(CounterRecipes, _ => Undefined, _ => Composition.ReturnsFunction(1, CounterBody), Undefined, sentinel);
      && m.Ok?
      && m.value.store.state == CounterState.fields
      && var after := StateStore.SetState(CounterRecipes, m.value.store, [Fun(IncTag)]);
         after.Ok? && after.value.state == map["value" := Num(1), "step" := Num(1)]
  {
    var m := Composition.CreateRootModel(CounterRecipes, _ => Undefined, _ => Composition.ReturnsFunction(1, CounterBody), Undefined, sentinel);
    assert Composition.InitialState(CounterEntries) == CounterState;
    var st := m.value.store;
    var ws := [StateStore.Assign("value", Num(1))];
    assert CounterRecipes(IncTag, st.state, []) == StateStore.Writes(ws);
    assert StateStore.ApplyWrites(st.state, ws) == st.state["value" := Num(1)] by {
      assert ws[..0] == [];
    }
  }

  /** The tag of `inc = (state, step) => { state.value += step }`. */
  const IncByTag: nat := 2

  /** Adds the first extra argument to `value`. */
  function IncByRecipes(tag: nat, s: Snapshot, extra: seq<Value>): (r: StateStore.RecipeRun) {
    if tag == IncByTag && "value" in s && s["value"].Num? && |extra| > 0 && extra[0].Num? then
      StateStore.Writes([StateStore.Assign("value", Num(s["value"].n + extra[0].n))])
    else StateStore.Writes([])
  }

  /** `setState(s => { s.value = 0 })` on a fresh store notifies `({}, {value: 0})`,
      and `setState(inc, 1)` then forwards `1` after the draft: `{value: 1}`. */
  lemma ExtrasForwarded(setZero: nat, id: nat)
    requires setZero != IncByTag
    ensures var recipes := (tag: nat, s: Snapshot, extra: seq<Value>) =>
              if tag == setZero then StateStore.Writes([StateStore.Assign("value", Num(0))]) else IncByRecipes(tag, s, extra);
      var (st, sub) := StateStore.Subscribe(StateStore.NewStore());
      var first := StateStore.SetState(recipes, st, [Fun(setZero)]);
      && first.Ok? && first.value.state == map["value" := Num(0)]
      && first.value.changes.log == [Subjects.Delivery(sub, StateStore.Change(map[], map["value" := Num(0)]))]
      && var second := StateStore.SetState(recipes, first.value, [Fun(IncByTag), Num(1)]);
         second.Ok? && second.value.state == map["value" := Num(1)]
  {
    var recipes := (tag: nat, s: Snapshot, extra: seq<Value>) =>
      if tag == setZero then StateStore.Writes([StateStore.Assign("value", Num(0))]) else IncByRecipes(tag, s, extra);
    var (st, sub) := StateStore.Subscribe(StateStore.NewStore());
    var w0 := [StateStore.Assign("value", Num(0))];
    assert w0[..0] == [];
    assert StateStore.ApplyWrites(map[], w0) == map["value" := Num(0)];
    var first := StateStore.SetState(recipes, st, [Fun(setZero)]);
    assert [Fun(setZero)][1..] == [];
    var w1 := [StateStore.Assign("value", Num(1))];
    assert w1[..0] == [];
    assert [Fun(IncByTag), Num(1)][1..] == [Num(1)];
    assert recipes(IncByTag, first.value.state, [Num(1)]) == StateStore.Writes(w1);
  }

  /** What happens while use cases run: an executor event, or a stage of run
      `run` calling `set(...args)`.  Should that call throw an argument
      error, `errorRef` is the reference of the new error object. */
  datatype Happening = Pipe(event: Pipelines.Event) | Effect(run: nat, args: seq<Value>, errorRef: nat)

  /** A model's store and effector together. */
  datatype World = World(store: StateStore.Store, executor: Pipelines.Executor)

  /** A stage body runs only while its run is in flight: a settled run's
      chain has been unsubscribed, so its later stages never execute.  A
      throwing `set` makes the stage throw, which fails the run. */
  function Happen(recipes: StateStore.Recipes, w: World, h: Happening): (r: World)
    requires StateStore.Valid(w.store)
    ensures StateStore.Valid(r.store)
  {
    match h
    case Pipe(e) => w.(executor := Pipelines.Step(w.executor, e))
    case Effect(id, args, errorRef) =>
      if id in w.executor.runs && w.executor.runs[id].Pending? then
        match StateStore.SetState(recipes, w.store, args)
        case Ok(s) => w.(store := s)
        case Err(err) =>
          var ref := if err.RecipeThrew? then err.error else errorRef;
          w.(executor := Pipelines.Step(w.executor, Pipelines.Fail(id, ref)))
      else w
  }

  function Happenings(recipes: StateStore.Recipes, w: World, hs: seq<Happening>): (r: World)
    requires StateStore.Valid(w.store)
    ensures StateStore.Valid(r.store)
    decreases |hs|
  {
    if |hs| == 0 then w else Happenings(recipes, Happen(recipes, w, hs[0]), hs[1..])
  }

  /** Once a run has settled, none of its stages' `set` calls reach the
      store any more and its outcome stays as it is.  This rests on an
      assumption about rxjs that `Happen` builds in rather than derives:
      a chain that has errored, completed or been cut by `takeUntil` is
      unsubscribed, so its remaining stages never execute. */
  lemma {:induction false} SettledRunTouchesNothing(recipes: StateStore.Recipes, w: World, id: nat, hs: seq<Happening>)
    requires StateStore.Valid(w.store)
    requires id in w.executor.runs && w.executor.runs[id].Settled?
    requires forall k :: 0 <= k < |hs| ==> hs[k].Effect? && hs[k].run == id
    ensures Happenings(recipes, w, hs) == w
    decreases |hs|
  {
    if |hs| > 0 {
      assert Happen(recipes, w, hs[0]) == w;
      SettledRunTouchesNothing(recipes, w, id, hs[1..]);
    }
  }

  /** A delayed `inc` stopped by `stopAllPipes()` before its delay elapses:
      the run rejects with the effector's stop error and the store keeps
      the value it had. */
  lemma StopBeforeDelayedIncrement(recipes: StateStore.Recipes, w: World, id: nat, n: nat, later: seq<Happening>)
    requires StateStore.Valid(w.store) && w.executor.kind.Cancellable?
    requires id !in w.executor.runs && n > 0
    requires forall k :: 0 <= k < |later| ==> later[k].Effect? && later[k].run == id
    ensures var r := Happenings(recipes, w, [Pipe(Pipelines.Start(id, n)), Pipe(Pipelines.StopAll)] + later);
      && r.store == w.store
      && id in r.executor.runs
      && r.executor.runs[id] == Pipelines.Settled(Pipelines.Rejected(Pipelines.Thrown(w.executor.kind.sentinel)))
      && Pipelines.IsStopError(w.executor.kind, r.executor.runs[id].outcome.reason)
  {
    var w1 := Happen(recipes, w, Pipe(Pipelines.Start(id, n)));
    var w2 := Happen(recipes, w1, Pipe(Pipelines.StopAll));
    assert id in w1.executor.runs && w1.executor.runs[id] == Pipelines.Pending([]);
    assert w2.executor.runs[id] == Pipelines.Settled(Pipelines.Rejected(Pipelines.Thrown(w.executor.kind.sentinel)));
    var hs := [Pipe(Pipelines.Start(id, n)), Pipe(Pipelines.StopAll)] + later;
    assert hs[0] == Pipe(Pipelines.Start(id, n)) && hs[1..][0] == Pipe(Pipelines.StopAll) && hs[1..][1..] == later;
    assert Happenings(recipes, w, hs) == Happenings(recipes, w2, later);
    SettledRunTouchesNothing(recipes, w2, id, later);
  }

  /** The counter of arity 2 built by the hooks: `stopAllPipes()` before the
      delayed increment fires leaves `value` at 0, and the use case rejects
      with an error `isStopError` recognises. */
  lemma DelayedCounterStopped(copy: Composition.HooksCopy, sentinel: nat, id: nat, errorRef: nat)
    ensures var m := Composition.CreateHooksModel(copy, CounterRecipes, Counter(2), sentinel);
      && m.Ok? && m.value.effector.Some?
      && var w := World(m.value.store, m.value.effector.value);
         var r := Happenings(CounterRecipes, w, [Pipe(Pipelines.Start(id, 2)), Pipe(Pipelines.StopAll),
                                                 Effect(id, [Fun(IncTag)], errorRef)]);
         && r.store.state == CounterState.fields
         && id in r.executor.runs
         && r.executor.runs[id].Settled? && r.executor.runs[id].outcome.Rejected?
         && Pipelines.IsStopError(Pipelines.Cancellable(sentinel), r.executor.runs[id].outcome.reason)
  {
    var m := Composition.CreateHooksModel(copy, CounterRecipes, Counter(2), sentinel);
    assert Composition.InitialState(CounterEntries) == CounterState;
    var w := World(m.value.store, m.value.effector.value);
    StopBeforeDelayedIncrement(CounterRecipes, w, id, 2, [Effect(id, [Fun(IncTag)], errorRef)]);
    assert [Pipe(Pipelines.Start(id, 2)), Pipe(Pipelines.StopAll)] + [Effect(id, [Fun(IncTag)], errorRef)]
        == [Pipe(Pipelines.Start(id, 2)), Pipe(Pipelines.StopAll), Effect(id, [Fun(IncTag)], errorRef)];
  }
}

=== FILE: pipelines.dfy ===
/** The pipeline executors: the cancellable effector `createEffector()` with
    its `pipe`, `stopAllPipes` and `isStopError`, and the plain `pipe`.
    Asynchronous stages are abstracted as an event trace; each run's promise
    is the state that trace folds it to. */
module Pipelines {
  import opened Values
  import opened Results
  import Stages

  /** Which executor: an effector, identified by the error object it rejects
      stopped runs with (a fresh one per instance), or the plain `pipe`. */
  datatype Kind = Cancellable(sentinel: nat) | Plain

  /** Why a run's promise rejects: `pipe()` got no stages, or an error object
      (by reference) was thrown by a stage or is the stop sentinel. */
  datatype Failure = NoStages | Thrown(error: nat)

  /** What a successful run resolves to: nothing, one value, or an array. */
  datatype Resolution = NoValue | Single(value: Value) | Many(values: seq<Value>)

  datatype Outcome = Resolved(resolution: Resolution) | Rejected(reason: Failure)

  /** A run's promise: pending with the values collected so far, or settled. */
  datatype RunState = Pending(emitted: seq<Value>) | Settled(outcome: Outcome)

  /** What can happen to runs: `pipe` called with `stages` stages; a run's
      chain emits a value, errors or completes; `stopAllPipes()`. */
  datatype Event =
    | Start(run: nat, stages: nat)
    | Emit(run: nat, value: Value)
    | Fail(run: nat, error: nat)
    | Complete(run: nat)
    | StopAll

  /** An executor instance with the promises of the runs started on it. */
  datatype Executor = Executor(kind: Kind, runs: map<nat, RunState>)

  /** `createEffector()` with `sentinel` the reference of its fresh stop error. */
  function CreateEffector(sentinel: nat): (ex: Executor)
    ensures ex.kind.Cancellable? && ex.kind.sentinel == sentinel && ex.runs == map[]
  {
    Executor(Cancellable(sentinel), map[])
  }

  /** The values a resolution carries, in order. */
  function Carried(r: Resolution): (vs: seq<Value>) {
    match r
    case NoValue => []
    case Single(v) => [v]
    case Many(vs) => vs
  }

  /** How a completed run's emissions become its result: one emission
      resolves to that value; the effector resolves to nothing for none and
      to the array for two or more; the plain pipe resolves to the array for
      any count but one, `[]` included.  Nothing is lost or reordered. */
  function Aggregate(kind: Kind, vs: seq<Value>): (r: Resolution)
    ensures Carried(r) == vs
    ensures r.Single? <==> |vs| == 1
    ensures r.NoValue? <==> kind.Cancellable? && |vs| == 0
  {
    if |vs| == 1 then Single(vs[0])
    else if |vs| == 0 && kind.Cancellable? then NoValue
    else Many(vs)
  }

  /** `isStopError(err)`: `err === stopErr` for this effector's sentinel,
      so it holds exactly for the reason a stop rejects this effector's
      runs with, whatever they had collected. */
  function IsStopError(kind: Kind, f: Failure): (b: bool)
    requires kind.Cancellable?
    ensures forall em :: b <==> Settle(kind, StopAll, em) == Rejected(f)
  {
    f.Thrown? && f.error == kind.sentinel
  }

  /** The promise `pipe` returns for `n` stages before anything happens. */
  function Initial(n: nat): (r: RunState)
    ensures r.Settled? <==> n == 0
    ensures r.Settled? ==> r.outcome == Rejected(NoStages)
    ensures r.Pending? ==> r.emitted == []
  {
    if n == 0 then Settled(Rejected(NoStages)) else Pending([])
  }

  /** Events that settle run `id`: its chain errors or completes, or (on an
      effector) a stop is broadcast. */
  predicate Ends(kind: Kind, e: Event, id: nat) {
    (e.Fail? && e.run == id) || (e.Complete? && e.run == id) || (e.StopAll? && kind.Cancellable?)
  }

  /** The outcome an ending event gives a run that collected `em`.  A stop
      sets the run's own flag and completes its chain, so it rejects with the
      sentinel whatever it collected. */
  function Settle(kind: Kind, e: Event, em: seq<Value>): (r: Outcome) {
    match e
    case Fail(_, err) => Rejected(Thrown(err))
    case StopAll => if kind.Cancellable? then Rejected(Thrown(kind.sentinel)) else Resolved(Aggregate(kind, em))
    case _ => Resolved(Aggregate(kind, em))
  }

  /** What event `e` does to run `id`'s promise: only pending runs move; a
      settled promise never changes. */
  function Advance(kind: Kind, st: RunState, e: Event, id: nat): (r: RunState) {
    if st.Settled? then st
    else if Ends(kind, e, id) then Settled(Settle(kind, e, st.emitted))
    else if e.Emit? && e.run == id then Pending(st.emitted + [e.value])
    else st
  }

  /** One event applied to the whole executor: a new `Start` adds its run's
      initial promise; settled runs never change, and a pending run moves
      only on an event that ends it or emits to it. */
  function Step(ex: Executor, e: Event): (r: Executor)
    ensures r.kind == ex.kind
    ensures r.runs.Keys == ex.runs.Keys + (if e.Start? then {e.run} else {})
    ensures e.Start? && e.run !in ex.runs ==> r.runs[e.run] == Initial(e.stages)
    ensures forall id :: id in ex.runs && ex.runs[id].Settled? ==> r.runs[id] == ex.runs[id]
    ensures forall id :: id in ex.runs && ex.runs[id].Pending? && !Ends(ex.kind, e, id) && !(e.Emit? && e.run == id) ==>
              r.runs[id] == ex.runs[id]
  {
    var moved := map r | r in ex.runs :: Advance(ex.kind, ex.runs[r], e, r);
    if e.Start? && e.run !in ex.runs then ex.(runs := moved[e.run := Initial(e.stages)])
    else ex.(runs := moved)
  }

  /** `stopAllPipes()`: every run in flight on this effector rejects with
      its sentinel; settled runs keep their outcome and no run is removed,
      so a stop with nothing in flight changes nothing. */
  function StopAllPipes(ex: Executor): (r: Executor)
    requires ex.kind.Cancellable?
    ensures r.kind == ex.kind && r.runs.Keys == ex.runs.Keys
    ensures forall id :: id in ex.runs && ex.runs[id].Pending? ==>
              r.runs[id] == Settled(Rejected(Thrown(ex.kind.sentinel)))
    ensures forall id :: id in ex.runs && ex.runs[id].Settled? ==> r.runs[id] == ex.runs[id]
  {
    Step(ex, StopAll)
  }

  /** The executor after a trace of events. */
  function Run(ex: Executor, t: seq<Event>): (r: Executor)
    ensures r.kind == ex.kind
    ensures ex.runs.Keys <= r.runs.Keys
    ensures forall id :: id in ex.runs && ex.runs[id].Settled? ==> r.runs[id] == ex.runs[id]
    decreases |t|
  {
    if |t| == 0 then ex else Run(Step(ex, t[0]), t[1..])
  }

  // ---------------------------------------------------------------------
  // Per-run reference reading of a trace

  /** The values emitted to run `id` in `t`, in order. */
  function EmittedIn(t: seq<Event>, id: nat): (r: seq<Value>)
    decreases |t|
  {
    if |t| == 0 then []
    else (if t[0].Emit? && t[0].run == id then [t[0].value] else []) + EmittedIn(t[1..], id)
  }

  /** The index of the first event in `t` that settles run `id`. */
  function FirstEnd(kind: Kind, t: seq<Event>, id: nat): (r: Option<nat>)
    ensures r.Some? ==> r.value < |t| && Ends(kind, t[r.value], id)
    ensures r.Some? ==> forall k :: 0 <= k < r.value ==> !Ends(kind, t[k], id)
    ensures r.None? ==> forall k :: 0 <= k < |t| ==> !Ends(kind, t[k], id)
    decreases |t|
  {
    if |t| == 0 then None
    else if Ends(kind, t[0], id) then Some(0)
    else match FirstEnd(kind, t[1..], id)
      case None => None
      case Some(j) => Some(j + 1)
  }

  /** Reference: a promise in state `st` followed by events `t` is decided by
      the first event that ends it, carrying what was emitted before that
      event; without one it is still pending with everything emitted. */
  function Continue(kind: Kind, st: RunState, t: seq<Event>, id: nat): (r: RunState) {
    match st
    case Settled(_) => st
    case Pending(em) =>
      match FirstEnd(kind, t, id)
      case None => Pending(em + EmittedIn(t, id))
      case Some(j) => Settled(Settle(kind, t[j], em + EmittedIn(t[..j], id)))
  }

  /** Reference: run `id` exists from its first `Start` on, and only the
      events after that `Start` matter to it. */
  function RunView(kind: Kind, t: seq<Event>, id: nat): (r: Option<RunState>)
    decreases |t|
  {
    if |t| == 0 then None
    else if t[0].Start? && t[0].run == id then Some(Continue(kind, Initial(t[0].stages), t[1..], id))
    else RunView(kind, t[1..], id)
  }

  lemma ContinueCons(kind: Kind, st: RunState, e: Event, t: seq<Event>, id: nat)
    ensures Continue(kind, st, [e] + t, id) == Continue(kind, Advance(kind, st, e, id), t, id)
  {
    var t' := [e] + t;
    assert t'[0] == e && t'[1..] == t;
    if st.Pending? && !Ends(kind, e, id) {
      var em := st.emitted;
      var here := if e.Emit? && e.run == id then [e.value] else [];
      assert EmittedIn(t', id) == here + EmittedIn(t, id);
      match FirstEnd(kind, t, id)
      case None =>
        assert FirstEnd(kind, t', id) == None;
        assert em + (here + EmittedIn(t, id)) == (em + here) + EmittedIn(t, id);
      case Some(j) =>
        assert FirstEnd(kind, t', id) == Some(j + 1);
        assert t'[..j + 1] == [e] + t[..j];
        assert t'[..j + 1][1..] == t[..j];
        assert EmittedIn(t'[..j + 1], id) == here + EmittedIn(t[..j], id);
        assert em + (here + EmittedIn(t[..j], id)) == (em + here) + EmittedIn(t[..j], id);
        assert t'[j + 1] == t[j];
        assert Continue(kind, st, t', id) == Settled(Settle(kind, t[j], em + (here + EmittedIn(t[..j], id))));
        assert Advance(kind, st, e, id) == Pending(em + here);
    } else if st.Pending? {
      assert FirstEnd(kind, t', id) == Some(0);
      assert t'[..0] == [];
      assert st.emitted + [] == st.emitted;
    }
  }

  /** A run that exists evolves as the reference says, whatever other runs
      and events are interleaved with its own. */
  lemma {:induction false} RunFromState(ex: Executor, t: seq<Event>, id: nat)
    requires id in ex.runs
    ensures id in Run(ex, t).runs
    ensures Run(ex, t).runs[id] == Continue(ex.kind, ex.runs[id], t, id)
    decreases |t|
  {
    if |t| > 0 {
      var ex' := Step(ex, t[0]);
      assert id in ex'.runs && ex'.runs[id] == Advance(ex.kind, ex.runs[id], t[0], id);
      RunFromState(ex', t[1..], id);
      ContinueCons(ex.kind, ex.runs[id], t[0], t[1..], id);
      assert [t[0]] + t[1..] == t;
    } else {
      assert EmittedIn(t, id) == [];
      assert ex.runs[id].Pending? ==> ex.runs[id].emitted + [] == ex.runs[id].emitted;
    }
  }

  /** Isolation: folding the whole trace gives every run exactly the promise
      the per-run reference computes from the events after its own start. */
  lemma {:induction false} RunMatchesView(ex: Executor, t: seq<Event>, id: nat)
    requires id !in ex.runs
    ensures (id in Run(ex, t).runs) == RunView(ex.kind, t, id).Some?
    ensures id in Run(ex, t).runs ==> Run(ex, t).runs[id] == RunView(ex.kind, t, id).value
    decreases |t|
  {
    if |t| > 0 {
      var ex' := Step(ex, t[0]);
      if t[0].Start? && t[0].run == id {
        assert id in ex'.runs && ex'.runs[id] == Initial(t[0].stages);
        RunFromState(ex', t[1..], id);
      } else {
        assert id !in ex'.runs;
        RunMatchesView(ex', t[1..], id);
      }
    }
  }

  // ---------------------------------------------------------------------
  // Consequences

  /** A settled promise never changes again: in particular a stop broadcast
      after a run settled leaves its outcome as it was. */
  lemma SettledIsFinal(ex: Executor, t: seq<Event>, id: nat)
    requires id in ex.runs && ex.runs[id].Settled?
    ensures id in Run(ex, t).runs && Run(ex, t).runs[id] == ex.runs[id]
  {
    RunFromState(ex, t, id);
  }

  /** Events before a run's start, a stop broadcast among them, do not
      reach it: each run keeps its own stop flag. */
  lemma {:induction false} EarlierEventsIgnored(kind: Kind, pre: seq<Event>, t: seq<Event>, id: nat)
    requires forall k :: 0 <= k < |pre| ==> !(pre[k].Start? && pre[k].run == id)
    ensures RunView(kind, pre + t, id) == RunView(kind, t, id)
    decreases |pre|
  {
    if |pre| > 0 {
      assert (pre + t)[0] == pre[0];
      assert (pre + t)[1..] == pre[1..] + t;
      EarlierEventsIgnored(kind, pre[1..], t, id);
    } else {
      assert pre + t == t;
    }
  }

  /** A run started after a `stopAllPipes()` ends exactly as it would have
      had the stop never happened. */
  lemma LaterRunNotPoisoned(ex: Executor, pre: seq<Event>, t: seq<Event>, id: nat)
    requires id !in ex.runs
    requires forall k :: 0 <= k < |pre| ==> !(pre[k].Start? && pre[k].run == id)
    ensures var a := Run(ex, pre + [StopAll] + t); var b := Run(ex, t);
      (id in a.runs <==> id in b.runs) && (id in a.runs ==> a.runs[id] == b.runs[id])
  {
    var pre' := pre + [StopAll];
    forall k | 0 <= k < |pre'| ensures !(pre'[k].Start? && pre'[k].run == id) {
      if k < |pre| { assert pre'[k] == pre[k]; }
    }
    EarlierEventsIgnored(ex.kind, pre', t, id);
    RunMatchesView(ex, pre' + t, id);
    RunMatchesView(ex, t, id);
  }

  /** The trace in which run `id` emits `vs` in order. */
  function Emits(id: nat, vs: seq<Value>): (t: seq<Event>)
    ensures |t| == |vs|
    ensures forall k :: 0 <= k < |vs| ==> t[k] == Emit(id, vs[k])
  {
    if |vs| == 0 then [] else [Emit(id, vs[0])] + Emits(id, vs[1..])
  }

  lemma {:induction false} EmitsReadBack(kind: Kind, id: nat, vs: seq<Value>)
    ensures EmittedIn(Emits(id, vs), id) == vs
    ensures FirstEnd(kind, Emits(id, vs), id) == None
    decreases |vs|
  {
    if |vs| > 0 {
      EmitsReadBack(kind, id, vs[1..]);
      assert Emits(id, vs)[1..] == Emits(id, vs[1..]);
    }
  }

  /** A run that starts with at least one stage, receives `vs` (perhaps
      interleaved with other runs' events that are not stops) and is then
      ended by `last` settles as `Settle` says with exactly `vs`, in order. */
  lemma {:induction false} EndedRun(ex: Executor, id: nat, n: nat, vs: seq<Value>, last: Event)
    requires id !in ex.runs && n > 0
    requires Ends(ex.kind, last, id)
    ensures var r := Run(ex, [Start(id, n)] + Emits(id, vs) + [last]);
      id in r.runs && r.runs[id] == Settled(Settle(ex.kind, last, vs))
  {
    var t := [Start(id, n)] + Emits(id, vs) + [last];
    var rest := Emits(id, vs) + [last];
    assert t == [Start(id, n)] + rest;
    RunMatchesView(ex, t, id);
    assert t[0] == Start(id, n) && t[1..] == rest;
    EmitsReadBack(ex.kind, id, vs);
    FirstEndAfter(ex.kind, Emits(id, vs), last, id);
    assert rest[..|vs|] == Emits(id, vs);
    assert rest[|vs|] == last;
    assert [] + vs == vs;
  }

  lemma FirstEndAfter(kind: Kind, t: seq<Event>, last: Event, id: nat)
    requires FirstEnd(kind, t, id) == None
    requires Ends(kind, last, id)
    ensures FirstEnd(kind, t + [last], id) == Some(|t|)
  {
    var r := FirstEnd(kind, t + [last], id);
    assert (t + [last])[|t|] == last;
    assert forall k :: 0 <= k < |t| ==> (t + [last])[k] == t[k];
    if r.Some? {
      assert r.value == |t|;
    }
  }

  /** Success aggregation: a run whose chain emits `vs` and completes
      resolves to `Aggregate(vs)`; nothing emitted is lost or reordered. */
  lemma CompletedRunResolves(ex: Executor, id: nat, n: nat, vs: seq<Value>)
    requires id !in ex.runs && n > 0
    ensures var r := Run(ex, [Start(id, n)] + Emits(id, vs) + [Complete(id)]);
      id in r.runs && r.runs[id] == Settled(Resolved(Aggregate(ex.kind, vs)))
      && Carried(r.runs[id].outcome.resolution) == vs
  {
    EndedRun(ex, id, n, vs, Complete(id));
  }

  /** A stage error rejects the run with that same error object, whatever
      was emitted before it. */
  lemma FailedRunRejects(ex: Executor, id: nat, n: nat, vs: seq<Value>, err: nat)
    requires id !in ex.runs && n > 0
    ensures var r := Run(ex, [Start(id, n)] + Emits(id, vs) + [Fail(id, err)]);
      id in r.runs && r.runs[id] == Settled(Rejected(Thrown(err)))
  {
    EndedRun(ex, id, n, vs, Fail(id, err));
  }

  /** `stopAllPipes()` during a run rejects it with the effector's sentinel,
      which `isStopError` recognises, and discards what it had collected. */
  lemma StoppedRunRejects(ex: Executor, id: nat, n: nat, vs: seq<Value>)
    requires id !in ex.runs && n > 0 && ex.kind.Cancellable?
    ensures var r := Run(ex, [Start(id, n)] + Emits(id, vs) + [StopAll]);
      id in r.runs && r.runs[id] == Settled(Rejected(Thrown(ex.kind.sentinel)))
      && IsStopError(ex.kind, r.runs[id].outcome.reason)
  {
    EndedRun(ex, id, n, vs, StopAll);
  }

  /** `pipe()` with no stages rejects at once, not with a stop error, and
      nothing that happens afterwards changes that. */
  lemma NoStagesRejects(ex: Executor, id: nat, t: seq<Event>)
    requires id !in ex.runs
    ensures var r := Run(ex, [Start(id, 0)] + t);
      id in r.runs && r.runs[id] == Settled(Rejected(NoStages))
      && (ex.kind.Cancellable? ==> !IsStopError(ex.kind, r.runs[id].outcome.reason))
  {
    var ex' := Step(ex, Start(id, 0));
    assert ([Start(id, 0)] + t)[1..] == t;
    SettledIsFinal(ex', t, id);
  }

  /** The plain `pipe` has no stop broadcast: a stop event changes none of
      its runs. */
  lemma PlainIgnoresStop(ex: Executor)
    requires ex.kind.Plain?
    ensures Step(ex, StopAll) == ex
  {
  }

  /** Two effectors own distinct sentinels, so a run stopped on one is not a
      stop error for the other; a stage's own error is a stop error only if
      it is that very sentinel object. */
  lemma StopErrorIsPerInstance(a: nat, b: nat, id: nat, n: nat, err: nat)
    requires a != b && n > 0
    ensures var r := Run(CreateEffector(a), [Start(id, n), StopAll]);
      && id in r.runs && r.runs[id].Settled? && r.runs[id].outcome.Rejected?
      && IsStopError(Cancellable(a), r.runs[id].outcome.reason)
      && !IsStopError(Cancellable(b), r.runs[id].outcome.reason)
    ensures IsStopError(Cancellable(a), Thrown(err)) <==> err == a
  {
    StoppedRunRejects(CreateEffector(a), id, n, []);
    assert [Start(id, n)] + Emits(id, []) + [StopAll] == [Start(id, n), StopAll];
  }

  // ---------------------------------------------------------------------
  // Synchronous stages

  /** The events of a run whose stages are all synchronous: its emissions in
      order, then its error or its completion. */
  function SyncTrace(id: nat, f: Stages.Flow): (r: seq<Event>) {
    Emits(id, f.emitted) + [if f.error.Some? then Fail(id, f.error.value) else Complete(id)]
  }

  /** What `pipe(...stages)` settles to when every stage is synchronous. */
  function SyncOutcome(kind: Kind, stages: seq<Stages.Stage>): (r: Outcome) {
    if |stages| == 0 then Rejected(NoStages)
    else
      var f := Stages.RunStages(stages);
      if f.error.Some? then Rejected(Thrown(f.error.value)) else Resolved(Aggregate(kind, f.emitted))
  }

  /** A synchronous pipeline settles before `pipe` returns, so a stop issued
      afterwards cannot reach it; with no stages nothing runs at all.  What
      it settles to agrees with the stage-level references. */
  lemma SyncRunSettles(ex: Executor, id: nat, stages: seq<Stages.Stage>, later: seq<Event>)
    requires id !in ex.runs
    ensures var body := if |stages| == 0 then [] else SyncTrace(id, Stages.RunStages(stages));
      var r := Run(ex, [Start(id, |stages|)] + body + later);
      id in r.runs && r.runs[id] == Settled(SyncOutcome(ex.kind, stages))
    ensures |stages| == 0 ==> SyncOutcome(ex.kind, stages) == Rejected(NoStages)
    ensures |stages| > 0 && Stages.Total(stages) ==>
              SyncOutcome(ex.kind, stages) == Resolved(Aggregate(ex.kind, Stages.Layers(stages, [Undefined])))
    ensures var o := SyncOutcome(ex.kind, stages);
      |stages| > 0 && o.Rejected? ==>
        o.reason.Thrown? && exists i, v :: 0 <= i < |stages| && stages[i](v) == Stages.Raises(o.reason.error)
  {
    SyncRunTiming(ex, id, stages, later);
    SyncOutcomeMeaning(ex.kind, stages);
  }

  lemma SyncRunTiming(ex: Executor, id: nat, stages: seq<Stages.Stage>, later: seq<Event>)
    requires id !in ex.runs
    ensures var body := if |stages| == 0 then [] else SyncTrace(id, Stages.RunStages(stages));
      var r := Run(ex, [Start(id, |stages|)] + body + later);
      id in r.runs && r.runs[id] == Settled(SyncOutcome(ex.kind, stages))
  {
    var n := |stages|;
    if n == 0 {
      NoStagesRejects(ex, id, later);
      assert [Start(id, 0)] + [] + later == [Start(id, 0)] + later;
    } else {
      var f := Stages.RunStages(stages);
      var last := if f.error.Some? then Fail(id, f.error.value) else Complete(id);
      var head := [Start(id, n)] + Emits(id, f.emitted) + [last];
      EndedRun(ex, id, n, f.emitted, last);
      RunSplit(ex, head, later);
      SettledIsFinal(Run(ex, head), later, id);
      assert [Start(id, n)] + SyncTrace(id, f) + later == head + later;
    }
  }

  lemma {:induction false} RunSplit(ex: Executor, a: seq<Event>, b: seq<Event>)
    ensures Run(ex, a + b) == Run(Run(ex, a), b)
    decreases |a|
  {
    if |a| == 0 {
      assert a + b == b;
    } else {
      assert (a + b)[0] == a[0] && (a + b)[1..] == a[1..] + b;
      RunSplit(Step(ex, a[0]), a[1..], b);
    }
  }

  /** What a synchronous pipeline settles to, against the stage-level
      references: with no throwing stage it resolves to the aggregate of the
      layer-by-layer emissions of the seed `undefined`; a rejection carries
      an error some stage threw. */
  lemma SyncOutcomeMeaning(kind: Kind, stages: seq<Stages.Stage>)
    ensures |stages| > 0 && Stages.Total(stages) ==>
              SyncOutcome(kind, stages) == Resolved(Aggregate(kind, Stages.Layers(stages, [Undefined])))
    ensures var o := SyncOutcome(kind, stages);
      |stages| > 0 && o.Rejected? ==>
        o.reason.Thrown? && exists i, v :: 0 <= i < |stages| && stages[i](v) == Stages.Raises(o.reason.error)
  {
    if |stages| > 0 {
      if Stages.Total(stages) {
        Stages.PushMatchesLayers(stages, 0, Undefined);
      }
      if Stages.RunStages(stages).error.Some? {
        Stages.PushErrorComesFromAStage(stages, 0, Undefined);
      }
    }
  }

  /** A stage that throws on a value reaching it (the stages before it
      never throw) rejects the synchronous run with a thrown error. */
  lemma SyncStageThrowRejects(kind: Kind, stages: seq<Stages.Stage>, i: nat, w: Value)
    requires i < |stages| && Stages.Total(stages[..i])
    requires w in Stages.Layers(stages[..i], [Undefined]) && stages[i](w).Raises?
    ensures SyncOutcome(kind, stages).Rejected? && SyncOutcome(kind, stages).reason.Thrown?
  {
    Stages.PushStageErrorReported(stages, 0, Undefined, i, w);
  }
}

=== FILE: results.dfy ===
/** Failure-carrying wrappers used across the model: a JavaScript call either
    returns a value or throws, and a property read either finds a key or not. */
module Results {

  datatype Option<+T> = None | Some(value: T)

  /** The outcome of a synchronous JavaScript call: it returns `value`, or it
      throws `error`. */
  datatype Result<+T, +E> = Ok(value: T) | Err(error: E)
}

=== FILE: stages.dfy ===
/** The stages (rxjs operators) a pipeline threads its seed through, in the
    synchronous case: each stage maps one incoming value to the values it
    emits, or throws.  Values travel depth-first, as rxjs pushes them: one
    value goes through every later stage before its sibling is emitted. */
module Stages {
  import opened Values
  import opened Results

  /** What one stage does with one incoming value. */
  datatype StageOut = Emits(values: seq<Value>) | Raises(error: nat)

  type Stage = Value -> StageOut

  /** The result of pushing values through stages: what reached the end, in
      order; the error that stopped it, if any; and the indices of the
      stages invoked, in invocation order. */
  datatype Flow = Flow(emitted: seq<Value>, error: Option<nat>, calls: seq<nat>)

  /** Pushes `v` into `stages`, whose first stage has index `base`. */
  function Push(stages: seq<Stage>, base: nat, v: Value): (f: Flow)
    ensures forall i :: 0 <= i < |f.calls| ==> base <= f.calls[i] < base + |stages|
    ensures |stages| == 0 ==> f == Flow([v], None, [])
    ensures |stages| > 0 ==> |f.calls| > 0 && f.calls[0] == base
    decreases |stages|, 0
  {
    if |stages| == 0 then Flow([v], None, [])
    else match stages[0](v)
      case Raises(e) => Flow([], Some(e), [base])
      case Emits(vs) =>
        var g := PushAll(stages[1..], base + 1, vs);
        Flow(g.emitted, g.error, [base] + g.calls)
  }

  /** Pushes `vs` one after the other; the first error stops the rest. */
  function PushAll(stages: seq<Stage>, base: nat, vs: seq<Value>): (f: Flow)
    ensures forall i :: 0 <= i < |f.calls| ==> base <= f.calls[i] < base + |stages|
    ensures |vs| == 0 ==> f == Flow([], None, [])
    ensures |vs| > 0 && |stages| > 0 ==> |f.calls| > 0 && f.calls[0] == base
    ensures |stages| == 0 && f.error.None? ==> f.emitted == vs
    decreases |stages|, |vs| + 1
  {
    if |vs| == 0 then Flow([], None, [])
    else
      var f := Push(stages, base, vs[0]);
      if f.error.Some? then f
      else
        var g := PushAll(stages, base, vs[1..]);
        Flow(f.emitted + g.emitted, g.error, f.calls + g.calls)
  }

  /** `of(undefined).pipe(...stages)`: the single seed `undefined` is pushed. */
  function RunStages(stages: seq<Stage>): (f: Flow)
    ensures forall i :: 0 <= i < |f.calls| ==> f.calls[i] < |stages|
    ensures |stages| == 0 ==> f == Flow([Undefined], None, [])
    ensures |stages| > 0 ==> |f.calls| > 0 && f.calls[0] == 0
    ensures |stages| > 0 && stages[0](Undefined).Raises? ==> f == Flow([], Some(stages[0](Undefined).error), [0])
  {
    Push(stages, 0, Undefined)
  }

  /** A `tap`: passes each value on unchanged. */
  ghost predicate IsTap(s: Stage) {
    forall v :: s(v) == Emits([v])
  }

  /** `0, 1, ..., n - 1` shifted by `base`. */
  function Indices(base: nat, n: nat): (r: seq<nat>)
    ensures |r| == n
    ensures forall i :: 0 <= i < n ==> r[i] == base + i
    decreases n
  {
    if n == 0 then [] else [base] + Indices(base + 1, n - 1)
  }

  /** A pipeline of taps runs every stage exactly once, in order, on the
      single seed, and emits the seed once. */
  lemma {:induction false} TapsRunOnceInOrder(stages: seq<Stage>, base: nat, v: Value)
    requires forall i :: 0 <= i < |stages| ==> IsTap(stages[i])
    ensures Push(stages, base, v) == Flow([v], None, Indices(base, |stages|))
    decreases |stages|
  {
    if |stages| > 0 {
      assert stages[0](v) == Emits([v]);
      TapsRunOnceInOrder(stages[1..], base + 1, v);
      var g := Push(stages[1..], base + 1, v);
      assert PushAll(stages[1..], base + 1, [v]) == Flow(g.emitted + [], None, g.calls + []) by {
        assert [v][1..] == [];
      }
      assert g.emitted + [] == g.emitted && g.calls + [] == g.calls;
    }
  }

  /** `pipe(tap(...), ..., tap(...))`: the chain receives `undefined`, every
      stage runs once in order, and `undefined` is emitted once. */
  lemma PipeOfTaps(stages: seq<Stage>)
    requires forall i :: 0 <= i < |stages| ==> IsTap(stages[i])
    ensures RunStages(stages) == Flow([Undefined], None, Indices(0, |stages|))
  {
    TapsRunOnceInOrder(stages, 0, Undefined);
  }

  /** Layer-by-layer reference: every value of one stage's output is handed
      to the next stage before moving on. */
  function Layers(stages: seq<Stage>, vs: seq<Value>): (r: seq<Value>)
    decreases |stages|, |vs|
  {
    if |stages| == 0 then vs
    else if |vs| == 0 then []
    else Layers(stages[1..], Outputs(stages[0], vs))
  }

  /** All the values one stage emits for `vs`, in order; meaningful when it
      never throws. */
  function Outputs(s: Stage, vs: seq<Value>): (r: seq<Value>)
    decreases |vs|
  {
    if |vs| == 0 then []
    else (match s(vs[0]) case Emits(out) => out case Raises(_) => []) + Outputs(s, vs[1..])
  }

  /** No stage ever throws. */
  ghost predicate Total(stages: seq<Stage>) {
    forall i, v :: 0 <= i < |stages| ==> stages[i](v).Emits?
  }

  lemma {:induction false} OutputsAppend(s: Stage, a: seq<Value>, b: seq<Value>)
    ensures Outputs(s, a + b) == Outputs(s, a) + Outputs(s, b)
    decreases |a|
  {
    if |a| == 0 {
      assert a + b == b;
    } else {
      assert (a + b)[1..] == a[1..] + b;
      OutputsAppend(s, a[1..], b);
    }
  }

  lemma {:induction false} LayersAppend(stages: seq<Stage>, a: seq<Value>, b: seq<Value>)
    ensures Layers(stages, a + b) == Layers(stages, a) + Layers(stages, b)
    decreases |stages|
  {
    if |stages| > 0 {
      if |a| == 0 {
        assert a + b == b;
      } else if |b| == 0 {
        assert a + b == a;
      } else {
        OutputsAppend(stages[0], a, b);
        var oa := Outputs(stages[0], a);
        var ob := Outputs(stages[0], b);
        LayersAppend(stages[1..], oa, ob);
        if |oa| == 0 {
          assert oa + ob == ob;
        } else if |ob| == 0 {
          assert oa + ob == oa;
        }
      }
    }
  }

  lemma OutputsSingle(s: Stage, v: Value)
    requires s(v).Emits?
    ensures Outputs(s, [v]) == s(v).values
  {
  }

  /** Emission order: when no stage throws, the depth-first run emits exactly
      what the layer-by-layer reference computes, in the same order. */
  lemma {:induction false} DepthFirstMatchesLayers(stages: seq<Stage>, base: nat, vs: seq<Value>)
    requires Total(stages)
    ensures PushAll(stages, base, vs).error == None
    ensures PushAll(stages, base, vs).emitted == Layers(stages, vs)
    decreases |stages|, |vs|
  {
    if |vs| > 0 {
      PushMatchesLayers(stages, base, vs[0]);
      DepthFirstMatchesLayers(stages, base, vs[1..]);
      LayersAppend(stages, [vs[0]], vs[1..]);
      assert [vs[0]] + vs[1..] == vs;
    }
  }

  lemma {:induction false} PushMatchesLayers(stages: seq<Stage>, base: nat, v: Value)
    requires Total(stages)
    ensures Push(stages, base, v).error == None
    ensures Push(stages, base, v).emitted == Layers(stages, [v])
    decreases |stages|, 0
  {
    if |stages| > 0 {
      assert stages[0](v).Emits?;
      var out := stages[0](v).values;
      assert Total(stages[1..]) by {
        forall i, w | 0 <= i < |stages[1..]| ensures stages[1..][i](w).Emits? {
          assert stages[1..][i] == stages[i + 1];
        }
      }
      DepthFirstMatchesLayers(stages[1..], base + 1, out);
      OutputsSingle(stages[0], v);
    }
  }

  /** An error a run stops with is one that some stage actually threw, on
      some value it received: it reaches the caller unchanged. */
  lemma {:induction false} ErrorComesFromAStage(stages: seq<Stage>, base: nat, vs: seq<Value>)
    requires PushAll(stages, base, vs).error.Some?
    ensures exists i, v :: 0 <= i < |stages| && stages[i](v) == Raises(PushAll(stages, base, vs).error.value)
    decreases |stages|, |vs|
  {
    var f := Push(stages, base, vs[0]);
    if f.error.Some? {
      PushErrorComesFromAStage(stages, base, vs[0]);
    } else {
      ErrorComesFromAStage(stages, base, vs[1..]);
    }
  }

  lemma {:induction false} PushErrorComesFromAStage(stages: seq<Stage>, base: nat, v: Value)
    requires Push(stages, base, v).error.Some?
    ensures exists i, w :: 0 <= i < |stages| && stages[i](w) == Raises(Push(stages, base, v).error.value)
    decreases |stages|, 0
  {
    match stages[0](v)
    case Raises(e) =>
      assert stages[0](v) == Raises(e);
    case Emits(vs) =>
      ErrorComesFromAStage(stages[1..], base + 1, vs);
      var i, w :| 0 <= i < |stages[1..]| && stages[1..][i](w) == Raises(Push(stages, base, v).error.value);
      assert stages[i + 1](w) == Raises(Push(stages, base, v).error.value);
  }

  /** A stage that throws is never swallowed: if stage `i` throws on a value
      `w` that reaches it (the stages before it never throw), the run
      reports an error. */
  lemma {:induction false} StageErrorReported(stages: seq<Stage>, base: nat, vs: seq<Value>, i: nat, w: Value)
    requires i < |stages| && Total(stages[..i])
    requires w in Layers(stages[..i], vs) && stages[i](w).Raises?
    ensures PushAll(stages, base, vs).error.Some?
    decreases |stages|, |vs| + 1
  {
    var p := stages[..i];
    if |vs| > 0 {
      LayersAppend(p, [vs[0]], vs[1..]);
      assert [vs[0]] + vs[1..] == vs;
      if w in Layers(p, [vs[0]]) {
        PushStageErrorReported(stages, base, vs[0], i, w);
      } else if Push(stages, base, vs[0]).error.None? {
        StageErrorReported(stages, base, vs[1..], i, w);
      }
    }
  }

  lemma {:induction false} PushStageErrorReported(stages: seq<Stage>, base: nat, v: Value, i: nat, w: Value)
    requires i < |stages| && Total(stages[..i])
    requires w in Layers(stages[..i], [v]) && stages[i](w).Raises?
    ensures Push(stages, base, v).error.Some?
    decreases |stages|, 0
  {
    if i == 0 {
      assert stages[..0] == [];
      assert w == v;
    } else {
      assert stages[..i][0] == stages[0];
      assert stages[0](v).Emits?;
      var out := stages[0](v).values;
      OutputsSingle(stages[0], v);
      var q := stages[1..][..i - 1];
      assert stages[..i][1..] == q;
      assert Total(q) by {
        forall j, u | 0 <= j < |q| ensures q[j](u).Emits? {
          assert q[j] == stages[..i][j + 1];
        }
      }
      assert stages[1..][i - 1] == stages[i];
      StageErrorReported(stages[1..], base + 1, out, i - 1, w);
    }
  }
}

=== FILE: state_store.dfy ===
/** The state store `_createState`: one snapshot, replaced or mutated by
    `setState`, with every accepted change broadcast as `(prev, next)` to
    the subscribers of an rxjs subject.  The three copies of the store in
    the repository are identical and share this model. */
module StateStore {
  import opened Values
  import opened Results
  import Subjects

  /** One top-level write a recipe performs on its draft.  A nested write
      `draft.a.b = x` is the top-level write of the updated value of `a`. */
  datatype Write = Assign(key: string, value: Value) | Delete(key: string)

  /** What running a recipe on a draft does: the writes it performs, in
      order, or the error object it throws (by reference). */
  datatype RecipeRun = Writes(writes: seq<Write>) | Throws(error: nat)

  /** The behaviour of each function value when immer runs it as a recipe
      `(draft, ...extra) => void`: given its tag, the snapshot the draft
      starts from and the extra arguments forwarded to it. */
  type Recipes = (nat, Snapshot, seq<Value>) -> RecipeRun

  /** The value `(prev, next)` the store's subject broadcasts. */
  datatype Change = Change(prev: Snapshot, next: Snapshot)

  /** `_state` and `_subOb` of one `_createState()` call. */
  datatype Store = Store(state: Snapshot, changes: Subjects.Subject<Change>)

  /** The errors `setState` throws: called with no arguments, or the
      recipe's own exception passed through immer unchanged. */
  datatype SetStateError = NoArguments | RecipeThrew(error: nat)

  /** The store's subject is consistent and never completed. */
  ghost predicate Valid(st: Store) {
    Subjects.Valid(st.changes) && !st.changes.closed
  }

  /** `_createState()`: the snapshot starts as `{}`, nobody subscribed. */
  function NewStore(): (st: Store)
    ensures Valid(st)
    ensures st.state == map[]
    ensures st.changes.observers == [] && st.changes.log == []
  {
    Store(map[], Subjects.Fresh())
  }

  /** A draft after one write. */
  function ApplyWrite(s: Snapshot, w: Write): (r: Snapshot) {
    match w
    case Assign(k, v) => s[k := v]
    case Delete(k) => s - {k}
  }

  /** The snapshot immer commits after the recipe performed `ws` in order. */
  function ApplyWrites(s: Snapshot, ws: seq<Write>): (r: Snapshot)
    decreases |ws|
  {
    if |ws| == 0 then s else ApplyWrite(ApplyWrites(s, ws[..|ws| - 1]), ws[|ws| - 1])
  }

  /** The last write in `ws` that touches `k`, if any. */
  function LastWrite(ws: seq<Write>, k: string): (r: Option<Write>)
    ensures r.Some? ==> r.value in ws && r.value.key == k
    ensures r.None? ==> forall i :: 0 <= i < |ws| ==> ws[i].key != k
    decreases |ws|
  {
    if |ws| == 0 then None
    else if ws[|ws| - 1].key == k then Some(ws[|ws| - 1])
    else LastWrite(ws[..|ws| - 1], k)
  }

  /** Reference reading of property `k` after the writes: the last write to
      `k` decides, and a key nobody wrote keeps its old value. */
  ghost function Lookup(s: Snapshot, ws: seq<Write>, k: string): (r: Option<Value>) {
    match LastWrite(ws, k)
    case None => if k in s then Some(s[k]) else None
    case Some(Assign(_, v)) => Some(v)
    case Some(Delete(_)) => None
  }

  /** The committed snapshot agrees with the reference reading on every key:
      the last write to a key wins, and untouched keys are kept as they
      were (the value-level content of immer's structural sharing). */
  lemma {:induction false} LastWriteWins(s: Snapshot, ws: seq<Write>, k: string)
    ensures (k in ApplyWrites(s, ws)) == Lookup(s, ws, k).Some?
    ensures k in ApplyWrites(s, ws) ==> ApplyWrites(s, ws)[k] == Lookup(s, ws, k).value
    decreases |ws|
  {
    if |ws| > 0 {
      LastWriteWins(s, ws[..|ws| - 1], k);
    }
  }

  /** A write that leaves the snapshot as it is: assigning the value a key
      already holds, or deleting an absent key. */
  predicate Idle(s: Snapshot, w: Write) {
    match w
    case Assign(k, v) => k in s && s[k] == v
    case Delete(k) => k !in s
  }

  /** A recipe that only writes values equal to the current ones commits a
      snapshot equal to the previous one. */
  lemma {:induction false} IdleWritesKeepSnapshot(s: Snapshot, ws: seq<Write>)
    requires forall i :: 0 <= i < |ws| ==> Idle(s, ws[i])
    ensures ApplyWrites(s, ws) == s
    decreases |ws|
  {
    if |ws| > 0 {
      IdleWritesKeepSnapshot(s, ws[..|ws| - 1]);
      match ws[|ws| - 1]
      case Assign(k, v) =>
        assert s[k := v] == s;
      case Delete(k) =>
        assert s - {k} == s;
    }
  }

  /** Replace mode: exactly one argument, and it is not a function. */
  predicate IsReplace(args: seq<Value>) {
    |args| == 1 && !args[0].Fun?
  }

  /** Mutate mode: the first argument is a function; the rest are extras. */
  predicate IsMutate(args: seq<Value>) {
    |args| >= 1 && args[0].Fun?
  }

  /** Publishes `next` and broadcasts `(prev, next)` once. */
  function Commit(st: Store, next: Snapshot): (r: Store)
    requires Valid(st)
  {
    Store(next, Subjects.Next(st.changes, Change(st.state, next)))
  }

  /** `setState(...args)`.  No arguments throws; a single non-function is
      shallow-copied into the next snapshot; a function is run as a recipe
      on the current snapshot with the remaining arguments forwarded after
      the draft; a non-function followed by more arguments matches neither
      mode and does nothing.  Each accepted call broadcasts `(prev, next)`
      once to the subscribers present, in subscription order. */
  function SetState(recipes: Recipes, st: Store, args: seq<Value>): (r: Result<Store, SetStateError>)
    requires Valid(st)
    ensures |args| == 0 ==> r == Err(NoArguments)
    ensures IsMutate(args) && recipes(args[0].tag, st.state, args[1..]).Throws? ==>
              r == Err(RecipeThrew(recipes(args[0].tag, st.state, args[1..]).error))
    ensures r.Err? <==> |args| == 0 || (IsMutate(args) && recipes(args[0].tag, st.state, args[1..]).Throws?)
    ensures r.Ok? ==> Valid(r.value)
    ensures r.Ok? ==> r.value.changes.observers == st.changes.observers && r.value.changes.nextId == st.changes.nextId
    ensures IsReplace(args) ==> r.Ok? && r.value.state == Spread(args[0])
    ensures IsMutate(args) && recipes(args[0].tag, st.state, args[1..]).Writes? ==>
              r.Ok? && r.value.state == ApplyWrites(st.state, recipes(args[0].tag, st.state, args[1..]).writes)
    ensures r.Ok? && (IsReplace(args) || IsMutate(args)) ==>
              r.value.changes == Subjects.Next(st.changes, Change(st.state, r.value.state))
    ensures |args| > 1 && !args[0].Fun? ==> r == Ok(st)
  {
    if |args| == 0 then Err(NoArguments)
    else if IsReplace(args) then Ok(Commit(st, Spread(args[0])))
    else if IsMutate(args) then
      match recipes(args[0].tag, st.state, args[1..])
      case Throws(e) => Err(RecipeThrew(e))
      case Writes(ws) => Ok(Commit(st, ApplyWrites(st.state, ws)))
    else Ok(st)
  }

  /** Every accepted call reaches each current subscriber exactly once and
      nobody else, and what each receives is `(prev, next)` with `prev` the
      snapshot before the call. */
  lemma NotifiesEachSubscriberOnce(recipes: Recipes, st: Store, args: seq<Value>, id: nat)
    requires Valid(st)
    requires SetState(recipes, st, args).Ok?
    requires IsReplace(args) || IsMutate(args)
    ensures var after := SetState(recipes, st, args).value;
      && Subjects.Count(after.changes.log, id) == Subjects.Count(st.changes.log, id) + (if id in st.changes.observers then 1 else 0)
      && (forall k :: |st.changes.log| <= k < |after.changes.log| ==>
            after.changes.log[k].value == Change(st.state, after.state))
  {
    Subjects.NextCount(st.changes, Change(st.state, SetState(recipes, st, args).value.state), id);
  }

  /** `subscribe(cb)`: registers a subscriber and returns the id that its
      unsubscribe function removes; nothing is delivered on subscribing. */
  function Subscribe(st: Store): (r: (Store, nat))
    requires Valid(st)
    ensures Valid(r.0)
    ensures r.0.state == st.state && r.0.changes.log == st.changes.log
    ensures r.0.changes.observers == st.changes.observers + [r.1]
    ensures r.1 !in st.changes.observers
  {
    var (changes, id) := Subjects.Subscribe(st.changes);
    (st.(changes := changes), id)
  }

  /** The function `subscribe` returns: stops that subscriber only. */
  function Unsubscribe(st: Store, id: nat): (r: Store)
    requires Valid(st)
    ensures Valid(r)
    ensures r.state == st.state && r.changes.log == st.changes.log
    ensures forall x :: x in r.changes.observers <==> x in st.changes.observers && x != id
  {
    st.(changes := Subjects.Unsubscribe(st.changes, id))
  }

  /** A caller issuing `setState` calls in turn, catching what they throw: a
      call that throws leaves the store as it was. */
  function SetStates(recipes: Recipes, st: Store, calls: seq<seq<Value>>): (r: Store)
    requires Valid(st)
    ensures Valid(r)
    ensures r.changes.observers == st.changes.observers
    decreases |calls|
  {
    if |calls| == 0 then st
    else
      var r := SetState(recipes, st, calls[0]);
      SetStates(recipes, if r.Ok? then r.value else st, calls[1..])
  }

  /** How many of `calls` were accepted and committed. */
  function Accepted(recipes: Recipes, st: Store, calls: seq<seq<Value>>): (r: nat)
    requires Valid(st)
    decreases |calls|
  {
    if |calls| == 0 then 0
    else
      var r := SetState(recipes, st, calls[0]);
      (if r.Ok? && (IsReplace(calls[0]) || IsMutate(calls[0])) then 1 else 0)
        + Accepted(recipes, if r.Ok? then r.value else st, calls[1..])
  }

  /** Over any sequence of calls, a subscriber that stays subscribed is
      notified exactly once per accepted call. */
  lemma {:induction false} SubscriberCountsAcceptedCalls(recipes: Recipes, st: Store, calls: seq<seq<Value>>, id: nat)
    requires Valid(st)
    requires id in st.changes.observers
    ensures Subjects.Count(SetStates(recipes, st, calls).changes.log, id)
         == Subjects.Count(st.changes.log, id) + Accepted(recipes, st, calls)
    decreases |calls|
  {
    if |calls| > 0 {
      var r := SetState(recipes, st, calls[0]);
      if r.Ok? && (IsReplace(calls[0]) || IsMutate(calls[0])) {
        NotifiesEachSubscriberOnce(recipes, st, calls[0], id);
      }
      SubscriberCountsAcceptedCalls(recipes, if r.Ok? then r.value else st, calls[1..], id);
    }
  }

  /** Over any sequence of calls, an id that is not subscribed receives
      nothing. */
  lemma {:induction false} AbsentHearsNothing(recipes: Recipes, st: Store, calls: seq<seq<Value>>, id: nat)
    requires Valid(st)
    requires id !in st.changes.observers
    ensures Subjects.Count(SetStates(recipes, st, calls).changes.log, id) == Subjects.Count(st.changes.log, id)
    decreases |calls|
  {
    if |calls| > 0 {
      var r := SetState(recipes, st, calls[0]);
      if r.Ok? && (IsReplace(calls[0]) || IsMutate(calls[0])) {
        NotifiesEachSubscriberOnce(recipes, st, calls[0], id);
      }
      AbsentHearsNothing(recipes, if r.Ok? then r.value else st, calls[1..], id);
    }
  }

  /** After `unsubscribe()`, that callback's count stops growing while every
      other subscriber keeps being notified once per accepted call. */
  lemma UnsubscribeIsolated(recipes: Recipes, st: Store, id: nat, other: nat, calls: seq<seq<Value>>)
    requires Valid(st)
    requires other in st.changes.observers && other != id
    ensures var after := SetStates(recipes, Unsubscribe(st, id), calls);
      && Subjects.Count(after.changes.log, id) == Subjects.Count(st.changes.log, id)
      && Subjects.Count(after.changes.log, other)
         == Subjects.Count(st.changes.log, other) + Accepted(recipes, Unsubscribe(st, id), calls)
  {
    AbsentHearsNothing(recipes, Unsubscribe(st, id), calls, id);
    SubscriberCountsAcceptedCalls(recipes, Unsubscribe(st, id), calls, other);
  }
}

=== FILE: subjects.dfy ===
/** An rxjs `Subject` as the store and the sync channel use it: a hot
    broadcast with no replay.  Observers are identified by the id their
    subscription received; what the subject delivers is kept as a log. */
module Subjects {

  /** One call of observer `observer`'s `next` handler with `value`. */
  datatype Delivery<T> = Delivery(observer: nat, value: T)

  /** `observers` are the live subscriptions in subscription order; `nextId`
      is the id the next subscription gets; `closed` records `complete()`. */
  datatype Subject<T> = Subject(closed: bool, observers: seq<nat>, nextId: nat, log: seq<Delivery<T>>)

  /** The subject's bookkeeping is consistent: live ids are listed in
      subscription order, every id met so far (live or in the log) was
      handed out already, and a completed subject keeps no observers. */
  ghost predicate Valid<T>(s: Subject<T>) {
    && Increasing(s.observers)
    && (forall i :: 0 <= i < |s.observers| ==> s.observers[i] < s.nextId)
    && (forall k :: 0 <= k < |s.log| ==> s.log[k].observer < s.nextId)
    && (s.closed ==> s.observers == [])
  }

  /** Ids are handed out in increasing order, so subscription order is
      increasing id order; in particular no id occurs twice. */
  ghost predicate Increasing(obs: seq<nat>) {
    forall i, j :: 0 <= i < j < |obs| ==> obs[i] < obs[j]
  }

  /** `x` is listed before `y`. */
  ghost predicate Before(obs: seq<nat>, x: nat, y: nat) {
    exists i, j :: 0 <= i < j < |obs| && obs[i] == x && obs[j] == y
  }

  /** In a list in subscription order, "listed before" is "subscribed earlier". */
  lemma BeforeIsLess(obs: seq<nat>, x: nat, y: nat)
    requires Increasing(obs) && x in obs && y in obs
    ensures Before(obs, x, y) <==> x < y
  {
    var i :| 0 <= i < |obs| && obs[i] == x;
    var j :| 0 <= j < |obs| && obs[j] == y;
    if x < y {
      assert i < j;
    }
  }

  /** `new Subject()`. */
  function Fresh<T>(): (s: Subject<T>)
    ensures Valid(s) && !s.closed && s.observers == [] && s.log == []
  {
    Subject(false, [], 0, [])
  }

  /** `subject.subscribe(observer)`: a new id; the observer is registered only
      while the subject is open (a completed subject completes it at once).
      Nothing already delivered is replayed to it. */
  function Subscribe<T>(s: Subject<T>): (r: (Subject<T>, nat))
    requires Valid(s)
    ensures Valid(r.0)
    ensures r.1 == s.nextId && r.0.nextId == s.nextId + 1
    ensures r.0.log == s.log && r.0.closed == s.closed
    ensures !s.closed ==> r.0.observers == s.observers + [r.1]
    ensures s.closed ==> r.0.observers == []
  {
    var id := s.nextId;
    (s.(observers := if s.closed then [] else s.observers + [id], nextId := id + 1), id)
  }

  /** The observers left after removing `id`, order kept. */
  function Remove(obs: seq<nat>, id: nat): (r: seq<nat>)
    ensures forall x :: x in r <==> x in obs && x != id
    ensures |r| <= |obs|
  {
    if |obs| == 0 then []
    else if obs[0] == id then Remove(obs[1..], id)
    else [obs[0]] + Remove(obs[1..], id)
  }

  lemma {:induction false} RemoveKeepsIncreasing(obs: seq<nat>, id: nat)
    requires Increasing(obs)
    ensures Increasing(Remove(obs, id))
  {
    if |obs| > 0 {
      RemoveKeepsIncreasing(obs[1..], id);
      var rest := Remove(obs[1..], id);
      forall x | x in rest ensures obs[0] < x {
        assert x in obs[1..];
      }
      if obs[0] != id {
        var r := [obs[0]] + rest;
        assert Remove(obs, id) == r;
        forall i, j | 0 <= i < j < |r| ensures r[i] < r[j] {
          assert r[j] == rest[j - 1];
          if i > 0 {
            assert r[i] == rest[i - 1];
          } else {
            assert rest[j - 1] in rest;
          }
        }
      }
    }
  }

  /** `subscription.unsubscribe()`: removes that observer only; the others
      stay in subscription order. */
  function Unsubscribe<T>(s: Subject<T>, id: nat): (r: Subject<T>)
    requires Valid(s)
    ensures Valid(r)
    ensures id !in r.observers
    ensures forall x :: x in r.observers <==> x in s.observers && x != id
    ensures forall i, j :: 0 <= i < j < |r.observers| ==> r.observers[i] < r.observers[j]
    ensures r.log == s.log && r.closed == s.closed && r.nextId == s.nextId
  {
    RemoveKeepsIncreasing(s.observers, id);
    var r := s.(observers := Remove(s.observers, id));
    assert forall i :: 0 <= i < |r.observers| ==> r.observers[i] in s.observers;
    r
  }

  /** Unsubscribing one observer does not reorder the others: of two that
      remain, the one listed first before is listed first after. */
  lemma UnsubscribeKeepsOrder<T>(s: Subject<T>, id: nat, x: nat, y: nat)
    requires Valid(s)
    requires x in Unsubscribe(s, id).observers && y in Unsubscribe(s, id).observers
    ensures Before(Unsubscribe(s, id).observers, x, y) <==> Before(s.observers, x, y)
  {
    BeforeIsLess(Unsubscribe(s, id).observers, x, y);
    BeforeIsLess(s.observers, x, y);
  }

  /** Unsubscribing twice is the same as unsubscribing once. */
  lemma UnsubscribeIdempotent<T>(s: Subject<T>, id: nat)
    requires Valid(s)
    ensures Unsubscribe(Unsubscribe(s, id), id) == Unsubscribe(s, id)
  {
    RemoveAbsent(Unsubscribe(s, id).observers, id);
  }

  lemma {:induction false} RemoveAbsent(obs: seq<nat>, id: nat)
    requires id !in obs
    ensures Remove(obs, id) == obs
  {
    if |obs| > 0 {
      RemoveAbsent(obs[1..], id);
    }
  }

  /** One delivery of `v` per observer, in the order given. */
  function Deliveries<T>(obs: seq<nat>, v: T): (r: seq<Delivery<T>>)
    ensures |r| == |obs|
    ensures forall i :: 0 <= i < |obs| ==> r[i] == Delivery(obs[i], v)
  {
    if |obs| == 0 then [] else [Delivery(obs[0], v)] + Deliveries(obs[1..], v)
  }

  /** `subject.next(v)`: every observer live at this moment receives `v`, in
      subscription order; a completed subject ignores it. */
  function Next<T>(s: Subject<T>, v: T): (r: Subject<T>)
    requires Valid(s)
    ensures Valid(r)
    ensures r.observers == s.observers && r.nextId == s.nextId && r.closed == s.closed
    ensures s.closed ==> r == s
    ensures !s.closed ==> r.log == s.log + Deliveries(s.observers, v)
  {
    if s.closed then s
    else
      var r := s.(log := s.log + Deliveries(s.observers, v));
      assert forall k :: |s.log| <= k < |r.log| ==> r.log[k] == Delivery(s.observers[k - |s.log|], v);
      r
  }

  /** `subject.complete()`: the subject closes for good and drops its
      observers. */
  function Complete<T>(s: Subject<T>): (r: Subject<T>)
    requires Valid(s)
    ensures Valid(r) && r.closed && r.observers == []
    ensures r.log == s.log && r.nextId == s.nextId
  {
    s.(closed := true, observers := [])
  }

  /** How many values observer `id` has received. */
  function Count<T>(log: seq<Delivery<T>>, id: nat): (r: nat) {
    if |log| == 0 then 0
    else Count(log[..|log| - 1], id) + (if log[|log| - 1].observer == id then 1 else 0)
  }

  lemma {:induction false} CountAppend<T>(a: seq<Delivery<T>>, b: seq<Delivery<T>>, id: nat)
    ensures Count(a + b, id) == Count(a, id) + Count(b, id)
    decreases |b|
  {
    if |b| == 0 {
      assert a + b == a;
    } else {
      assert (a + b)[..|a + b| - 1] == a + b[..|b| - 1];
      CountAppend(a, b[..|b| - 1], id);
    }
  }

  /** Each observer appears in a delivery round once if it is listed, never
      otherwise (observer ids are distinct). */
  lemma {:induction false} CountDeliveries<T>(obs: seq<nat>, v: T, id: nat)
    requires Increasing(obs)
    ensures Count(Deliveries(obs, v), id) == if id in obs then 1 else 0
    decreases |obs|
  {
    if |obs| > 0 {
      var d := Deliveries(obs, v);
      assert d == Deliveries(obs[..|obs| - 1], v) + [Delivery(obs[|obs| - 1], v)];
      CountAppend(Deliveries(obs[..|obs| - 1], v), [Delivery(obs[|obs| - 1], v)], id);
      CountDeliveries(obs[..|obs| - 1], v, id);
      assert [Delivery(obs[|obs| - 1], v)][..0] == [];
      if id in obs[..|obs| - 1] {
        var k :| 0 <= k < |obs| - 1 && obs[k] == id;
        assert obs[k] < obs[|obs| - 1];
      } else if id in obs {
        assert obs[|obs| - 1] == id;
      }
    }
  }

  /** `next` reaches each live observer exactly once and no one else. */
  lemma NextCount<T>(s: Subject<T>, v: T, id: nat)
    requires Valid(s)
    ensures Count(Next(s, v).log, id) == Count(s.log, id) + (if id in s.observers then 1 else 0)
  {
    if !s.closed {
      CountAppend(s.log, Deliveries(s.observers, v), id);
      CountDeliveries(s.observers, v, id);
    }
  }

  /** `next` as seen by every id at once. */
  lemma NextCountAll<T>(s: Subject<T>, v: T)
    requires Valid(s)
    ensures forall id :: Count(Next(s, v).log, id) == Count(s.log, id) + (if id in s.observers then 1 else 0)
  {
    forall id ensures Count(Next(s, v).log, id) == Count(s.log, id) + (if id in s.observers then 1 else 0) {
      NextCount(s, v, id);
    }
  }

  /** No replay: an observer that subscribes after a value was broadcast has
      received nothing yet. */
  lemma NoReplay<T>(s: Subject<T>)
    requires Valid(s)
    ensures Count(Subscribe(s).0.log, Subscribe(s).1) == 0
  {
    NoDeliveriesTo(s.log, s.nextId);
  }

  lemma {:induction false} NoDeliveriesTo<T>(log: seq<Delivery<T>>, id: nat)
    requires forall k :: 0 <= k < |log| ==> log[k].observer < id
    ensures Count(log, id) == 0
    decreases |log|
  {
    if |log| > 0 {
      NoDeliveriesTo(log[..|log| - 1], id);
    }
  }
}

=== FILE: values.dfy ===
/** The JavaScript values a model's state is made of.  A snapshot is a plain
    object: a finite map from property names to values. */
module Values {

  /** A JavaScript value as far as state snapshots need one.  A function is
      an opaque `Fun` identified by `tag`; what calling it does is supplied
      separately wherever the source calls one. */
  datatype Value =
    | Undefined
    | Null
    | Bool(b: bool)
    | Num(n: int)
    | Str(s: string)
    | Obj(fields: map<string, Value>)
    | Fun(tag: nat)

  /** One state of a store: the own enumerable properties of a plain object. */
  type Snapshot = map<string, Value>

  /** Object spread `{...v}`: the own enumerable properties of `v` copied into
      a fresh object.  `undefined`, `null`, booleans, numbers and functions
      have none. */
  function Spread(v: Value): (r: Snapshot) {
    match v
    case Obj(fields) => fields
    case _ => map[]
  }
}
